=== FILE: README.md ===
# AsyncEmitter dispatch, modelled in Dafny

This project models the core of `AsyncEmitter`, an in-process event emitter
for TypeScript. Listeners subscribe to a key with `on`. `emitAsync` calls
every listener of the key and awaits any promise-like results. Failures are
re-emitted on the ordinary `'error'` key.

The model has these parts:

- **Values** (`values.dfy`). Abstract JavaScript values: primitives, `null`,
  `undefined`, and objects. Each object is callable or not, and has a `then`
  property that is absent, not a function, or a function. A callable `then`
  records how the thenable settles. `IsPromiseLike` is `isPromiseLike`.
  `Settle` is how `await Promise.resolve(x)` ends.
- **Registry** (`registry.dfy`). The listener table is a `map<Key, seq<ListenerId>>`.
  `On` is `on`. A key is a string, a number or a symbol.
- **Events** (`events.dfy`). A listener call is replaced by its outcome: it
  returns a value (maybe a thenable) or throws. A `Behaviour` gives the
  outcome of each listener for each argument list. A dispatch yields a trace
  of steps: `Call` (receiver, key, listener, arguments), `Awaited(slot)`, and
  `ErrorEmitted(reason, nested)`. The last one is a complete nested dispatch
  on `'error'`.
- **Dispatch** (`dispatch.dfy`). These functions follow the source:
  - `FastLoop` is the fast loop.
  - `EmitError` is `#emitError`.
  - `SafeLoop` is `#emitAsyncSafe`.
  - `HandlePromises` is `#handlePromises`.
  - `Finish` is the final `if (thenables)`.
  - `EmitAsyncCore` is `#emitAsync`.

  Every `await` is a sequential step. The table does not change during a
  dispatch. The recursion through `'error'` is bounded by `fuel`, the number
  of nested `'error'` dispatches allowed. `None` means the bound was reached,
  where the source would recurse without end.
- **Reference** (`reference.dfy`). An independent description of a dispatch
  as a sequence of marks:
  - In the invocation stage, each listener is invoked in order, and a thrower
    is followed at once by its report.
  - In the settlement stage, which runs exactly when some captured result is
    promise-like, every slot is awaited in order and each rejection is
    reported.
- **Faithfulness**, **Completion**, **Silence**, **Api**, **Properties** and
  **Findings**. These relate the algorithm to the reference, state when a
  dispatch completes and when it cannot, show that emissions nobody listens
  to do nothing, and give the public `emitAsync`.

Two behaviours of the code are worth knowing.

- Line 44 reads `thenables ||= await this.#emitAsyncSafe(...)`. `||=`
  evaluates its right side only when the flag is false. Say a listener
  before the first synchronous throw returned a promise-like value. Then the
  recovery loop never runs and the listeners after the thrower are never
  called. See "## Findings". `Api.EmitAsync` is the code as written.
  `Api.EmitAsyncCorrected` always runs the recovery loop.
- `isPromiseLike` requires `typeof x === 'object'`, so a function with a
  callable `then` is not promise-like. `await` would still adopt it. Its
  rejection is reported only if some other listener of the same dispatch
  returned a promise-like value and so set the flag.
  `Values.CallableThenableEscapesClassification` exhibits such a value.

How the code reports failures:

- Errors go to listeners of the ordinary `'error'` key. The only argument is
  the raw thrown or rejected value.
- There is no `onUnhandledError` hook. With no `'error'` listener, an
  emission is a dispatch that does nothing.
- Nothing guards against recursion. A failing `'error'` listener makes the
  dispatch re-enter itself.

The emitter's tests expect more than this. They destructure a
`{listener, reason}` payload (src/AsyncEmitter.test.ts:83) and set an
`onUnhandledError` hook (src/AsyncEmitter.test.ts:122-152). The model
follows `src/AsyncEmitter.ts`.

## Model

| member | source | states |
|---|---|---|
| Values.IsPromiseLike | src/AsyncEmitter.ts:5-7 | a value is promise-like exactly when it is a non-callable object with a callable `then`, and awaiting it adopts that `then`; a value that rejects when awaited but is not promise-like must be a callable object |
| Values.Settle | src/AsyncEmitter.ts:57 | awaiting `Promise.resolve(x)` rejects only for an object whose `then` is callable and rejects; anything without a callable `then` fulfils |
| Values.CallableThenableEscapesClassification | src/AsyncEmitter.ts:5-7 | every function whose `then` rejects is not promise-like, yet awaiting it rejects |
| Registry.New | src/AsyncEmitter.ts:12 | a new emitter has no entry for any key |
| Registry.On | src/AsyncEmitter.ts:16-23 | the listener is appended at the end of the key's sequence, which is created if absent; every other key keeps its entry |
| Registry.RegistrationOrder | src/AsyncEmitter.ts:16-23 | after any series of subscriptions each key lists exactly the listeners subscribed to it, in subscription order, duplicates kept; a key has an entry exactly when something subscribed to it |
| Dispatch.FastLoop | src/AsyncEmitter.ts:34-41 | either no listener throws and every one is called in order with its result captured, or it stops at the first thrower, leaving a hole in its slot and exactly the later listeners uncalled; the flag is set exactly when a captured result is promise-like |
| Dispatch.EmitError | src/AsyncEmitter.ts:50-52 | a completed emission is an 'error' dispatch carrying exactly the failure value |
| Dispatch.SafeLoop | src/AsyncEmitter.ts:64-75 | every remaining listener is called once in order, each throw is emitted right after its call, slots are filled as the reference says, and its own flag says whether any of these results is promise-like |
| Dispatch.HandlePromises | src/AsyncEmitter.ts:54-62 | every slot is awaited once in index order, and exactly the rejecting ones are emitted, each right after its await |
| Dispatch.Finish | src/AsyncEmitter.ts:47 | settlement follows the calls only when the flag is set |
| Dispatch.EmitAsyncCore | src/AsyncEmitter.ts:30-48 | a missing entry gives an empty trace, and a completed dispatch of a non-empty entry starts by calling its first listener; the rest of its contract is carried by Faithfulness.DispatchOk, Faithfulness.DispatchSkeleton and Completion.DispatchCompletes |
| Api.EmitAsync | src/AsyncEmitter.ts:25-48 | the dispatch as written: outside the skipping case its top level is the reference; in the skipping case it is the reference cut after the first thrower, with holes for the uncalled listeners; every call has the emitter as receiver and the dispatch's key and arguments, and every nested 'error' dispatch is itself a dispatch as written; with no 'error' listener every emission does nothing; with 'error' listeners that never fail it completes |
| Api.EmitAsyncCorrected | src/AsyncEmitter.ts:25-48 | the corrected half of the line-44 finding: a completed dispatch follows the reference at every nesting level; with 'error' listeners that never fail it always completes |
| Faithfulness.DispatchSkeleton | src/AsyncEmitter.ts:30-48 | the top level of a completed dispatch is the reference: invocation stage, then settlement exactly when some result is promise-like |
| Faithfulness.WrittenSkeleton | src/AsyncEmitter.ts:30-48 | the top level of the written dispatch is the reference outside the skipping case, and the cut reference inside it |
| Faithfulness.SkippedSkeleton | src/AsyncEmitter.ts:37-47 | in the skipping case the written dispatch calls the listeners up to the first thrower, emits its error, and settles every slot, the uncalled ones as holes |
| Faithfulness.DispatchOk | src/AsyncEmitter.ts:30-52 | under either recovery rule, a completed dispatch and every nested 'error' dispatch have the shape that rule gives (the reference, or for the written code in the skipping case the cut reference), with receiver, key and arguments as given |
| Faithfulness.CallsAsGiven | src/AsyncEmitter.ts:30-75 | every top-level call of a completed dispatch, written or corrected, has the emitter as receiver and the dispatch's key and arguments |
| Completion.QuietErrorDispatch | src/AsyncEmitter.ts:50-52 | when 'error' listeners never fail, an 'error' dispatch completes without fuel, emits nothing, and is the same under both recovery rules |
| Completion.DispatchCompletes | src/AsyncEmitter.ts:30-75 | when 'error' listeners never fail, every dispatch completes given one level of nesting, under both recovery rules |
| Completion.EmissionNeverCompletes | src/AsyncEmitter.ts:50-52 | an 'error' listener that always throws makes every error emission recurse past any bound |
| Completion.DispatchNeverCompletes | src/AsyncEmitter.ts:42-52 | with such a listener, any dispatch in which a listener throws never completes |
| Silence.DispatchSilent | src/AsyncEmitter.ts:30-52 | with no 'error' listener, every emission of a completed dispatch, written or corrected, has an empty nested dispatch |
| Properties.AbsentKeyIsNoOp | src/AsyncEmitter.ts:31-32 | a key with no entry gives an empty trace: nothing called, nothing emitted |
| Properties.EveryListenerInvokedOnce | src/AsyncEmitter.ts:37-45 | every listener of the key is invoked exactly once, in registration order, whatever throws; only listeners of that key run at the top level; each call has the emitter as receiver and the dispatch arguments; the written dispatch invokes the same listeners outside the skipping case, and its calls have the same receiver and arguments in every case |
| Properties.ThrowReportedBeforeNextListener | src/AsyncEmitter.ts:42-73 | right after a thrower is invoked comes the emission of its error; earlier listeners were invoked before it and exactly the later ones after it; the written dispatch does the same outside the skipping case |
| Properties.ErrorEmissionsMatchFailures | src/AsyncEmitter.ts:42-62 | the values emitted on 'error' are exactly the synchronous throws in listener order, then, when settling, the rejections in slot order; resolved slots, plain values and holes emit nothing; the written dispatch does the same outside the skipping case |
| Properties.SettlementOnlyWhenPromiseLike | src/AsyncEmitter.ts:35-47 | slots are awaited exactly when some captured result, before or after a throw, is promise-like, and then all of them once, in order; this holds for the written dispatch in every case |
| Properties.UnheardErrorsAreSilent | src/AsyncEmitter.ts:30-52 | with no 'error' listener every emission is a dispatch that does nothing, in the written and in the corrected dispatch |
| Properties.QuietErrorsComplete | src/AsyncEmitter.ts:30-75 | with 'error' listeners that never fail, both the corrected and the written dispatch complete |
| Properties.FailingErrorListenerDiverges | src/AsyncEmitter.ts:50-52 | an 'error' listener that always throws makes a dispatch with a throwing listener exhaust every fuel bound |
| Properties.SubscribingElsewhereIsInvisible | src/AsyncEmitter.ts:16-23 | subscribing to another ordinary key changes nothing about a dispatch |
| Properties.SubscribedListenerRunsLast | src/AsyncEmitter.ts:16-41 | a listener just subscribed is invoked after all earlier listeners of its key; the written dispatch does the same outside the skipping case |
| Faithfulness.FastLoopStopsAtFirstThrow | src/AsyncEmitter.ts:37-42 | the fast loop stops at the first listener that throws |
| Findings.FlagSetBeforeThrowIsTheSkippingCase | src/AsyncEmitter.ts:38-44 | the written code skips recovery only when a promise-like result came before the first throw and listeners remain |
| Findings.AsWrittenSkipsRemainingListeners | src/AsyncEmitter.ts:44 | in that case the written dispatch invokes exactly the listeners up to the first thrower, still awaits every slot, and reports only the throws and rejections of the listeners it called |
| Findings.WitnessAsWritten | src/AsyncEmitter.ts:44 | three listeners on "hello" (a pending promise, a throw, a plain return) and none on 'error': the written dispatch completes and invokes only the first two |
| Findings.SkippedListenerWitness | src/AsyncEmitter.ts:44 | a concrete three-listener case in which the written code skips the third listener and the corrected code calls it |
| Findings.RecoveryRulesAgree | src/AsyncEmitter.ts:42-47 | outside the skipping case, and with 'error' listeners that never fail, the written and the corrected dispatch produce the same trace |

## Left out

- Promise scheduling. Each `await` is one sequential step, and a thenable's
  settlement is fixed when it is returned. Microtask order relative to code
  outside the emitter is not modelled.
- Stateful listeners. A listener's outcome depends only on the listener and
  the arguments, so a listener cannot behave differently on its second call.
- Subscribing during a dispatch. The loops re-read the live array length, so
  such a subscription would be seen. The model keeps the table fixed for the
  whole dispatch.
- Unbounded recursion. An `'error'` listener that keeps failing on what it
  is given makes the source re-enter dispatch without end, which ends in a stack overflow or an endless
  promise chain. `fuel` bounds the nesting, and `None` stands for all of these
  outcomes.
- Getters and proxies. A `then` getter is read by `isPromiseLike` inside the
  fast loop's `try` (src/AsyncEmitter.ts:39-40), so a throwing getter would
  act as a throw of that listener with its slot already filled; the model has
  no getters or proxies.
- A `then` that throws when called. This is folded into the thenable's
  settlement, as a rejection.
- Number keys are integers, not floating-point values.
- TypeScript type-level machinery (`Listener`, `Args`). It has no run-time
  behaviour.
- The benchmark harness. It contains no logic of its own.
- The `onUnhandledError` hook and `{listener, reason}` records. The tests use
  them, but the emitter's code has neither.
- Thenables that never settle. Each awaited thenable settles as recorded, so
  completion is stated only for dispatches whose every awaited thenable
  settles. This bounds what Api.EmitAsync, Api.EmitAsyncCorrected,
  Completion.DispatchCompletes and Properties.QuietErrorsComplete promise.
- Re-entrant `emitAsync` calls made by a listener on the same emitter. A
  listener's effect is its outcome only, so such a call is not part of the
  trace.
- Properties.EveryListenerInvokedOnce: for the written dispatch, this and
  Properties.ThrowReportedBeforeNextListener and
  Properties.ErrorEmissionsMatchFailures are stated only outside the skipping
  case (`Reference.SkipsRecovery`). Inside it, the invocations stop after the
  first thrower, and the reports lose exactly the throws and rejections of the
  skipped listeners (`Findings.AsWrittenSkipsRemainingListeners`).
  Properties.SettlementOnlyWhenPromiseLike and
  Properties.UnheardErrorsAreSilent hold for the written dispatch in every
  case.
- Properties.SubscribedListenerRunsLast: for the written dispatch it is
  stated only outside the skipping case. Inside it, the listener subscribed
  last comes after the first thrower and is never invoked
  (`Findings.WitnessAsWritten`).

## Findings

| source | as written | input that shows it | evidently intended | confidence | as-written member | corrected member |
|---|---|---|---|---|---|---|
| src/AsyncEmitter.ts:44 | `thenables ||= await this.#emitAsyncSafe(...)` runs the recovery loop only while the flag is false | listener A returns a pending promise, B throws, C returns nothing: C is never called | run the remaining listeners every time and OR their flag in | high; not executed | Findings.AsWrittenSkipsRemainingListeners | Properties.EveryListenerInvokedOnce |

=== FILE: api.dfy ===
/**
 * The public `emitAsync` of an emitter, exactly as written and with the
 * recovery loop always run.
 */
module Api {
  import opened Wrappers
  import opened Values
  import opened Registry
  import opened Events
  import opened Reference
  import opened Dispatch
  import opened Faithfulness
  import opened Completion
  import opened Silence

  /** `emitAsync(eventName, ...args)` exactly as written, short-circuit
      included.  Outside the skipping case its top level follows the
      reference description; in it, the listeners after the first thrower
      are never called but every slot is still awaited.  Every call has
      the emitter as receiver and the dispatch's key and arguments, and
      every nested 'error' dispatch is itself a dispatch as written.  With
      no 'error' listener every error emission does nothing, and when no
      'error' listener can fail it completes. */
  function EmitAsync(em: AsyncEmitter, beh: Behaviour, key: Key, args: seq<JsValue>, fuel: nat): (r: Option<seq<Step>>)
    ensures var ls := Listed(Lookup(em, key));
      r.Some? && (forall i: nat :: !SkipsRecovery(beh, ls, args, i)) ==> Skeleton(r.value) == Expected(beh, ls, args)
    ensures var ls := Listed(Lookup(em, key));
      forall i: nat :: r.Some? && SkipsRecovery(beh, ls, args, i) ==> Skeleton(r.value) == SkippedExpected(beh, ls, i, args)
    ensures r.Some? ==> forall j :: 0 <= j < |r.value| && r.value[j].Call? ==>
      r.value[j] == Call(em.self, key, r.value[j].listener, args)
    ensures r.Some? ==> Faithful(CtxOf(em, beh), ShortCircuit, key, Listed(Lookup(em, key)), args, r.value)
    ensures Listed(Lookup(em, ErrorKey)) == [] && r.Some? ==> NestedSilent(r.value)
    ensures QuietErrorListeners(CtxOf(em, beh)) && fuel >= 1 ==> r.Some?
  {
    WrittenSkeleton(CtxOf(em, beh), key, Lookup(em, key), args, fuel);
    DispatchOk(CtxOf(em, beh), ShortCircuit, key, Lookup(em, key), args, fuel);
    CallsAsGiven(CtxOf(em, beh), ShortCircuit, key, Lookup(em, key), args, fuel);
    DispatchSilent(CtxOf(em, beh), ShortCircuit, key, Lookup(em, key), args, fuel);
    DispatchCompletes(CtxOf(em, beh), ShortCircuit, key, Lookup(em, key), args, fuel);
    EmitAsyncCore(CtxOf(em, beh), ShortCircuit, key, Lookup(em, key), args, fuel)
  }

  /** `emitAsync(eventName, ...args)` with the recovery loop always run.
      When it completes, its trace follows the reference description, nested
      'error' dispatches included; when no 'error' listener can fail it
      does complete. */
  function EmitAsyncCorrected(em: AsyncEmitter, beh: Behaviour, key: Key, args: seq<JsValue>, fuel: nat): (r: Option<seq<Step>>)
    ensures r.Some? ==> Faithful(CtxOf(em, beh), AlwaysRecover, key, Listed(Lookup(em, key)), args, r.value)
    ensures QuietErrorListeners(CtxOf(em, beh)) && fuel >= 1 ==> r.Some?
  {
    DispatchOk(CtxOf(em, beh), AlwaysRecover, key, Lookup(em, key), args, fuel);
    DispatchCompletes(CtxOf(em, beh), AlwaysRecover, key, Lookup(em, key), args, fuel);
    EmitAsyncCore(CtxOf(em, beh), AlwaysRecover, key, Lookup(em, key), args, fuel)
  }
}

=== FILE: completion.dfy ===
/**
 * When a dispatch completes and when it cannot.  `#emitError` re-enters
 * dispatch on the 'error' key, so an 'error' listener that fails makes the
 * recursion go on for ever; if 'error' listeners never throw and never
 * reject, every dispatch completes after at most one nested level.
 */
module Completion {
  import opened Wrappers
  import opened Values
  import opened Registry
  import opened Events
  import opened Reference
  import opened Dispatch

  /** Every 'error' listener, whatever it is given, returns a value that
      does not reject when awaited. */
  ghost predicate QuietErrorListeners(c: Ctx)
  {
    forall l, a :: l in Listed(c.errors) ==> c.beh(l, a).Returned? && !Settle(c.beh(l, a).value).Rejected?
  }

  /** The `Awaited` steps for slots `from` .. `from + n - 1`. */
  function AwaitSteps(from: nat, n: nat): seq<Step>
    decreases n
  {
    if n == 0 then [] else [Awaited(from)] + AwaitSteps(from + 1, n - 1)
  }

  /** What an 'error' dispatch does when no 'error' listener fails: call
      them all, then await every slot if one returned a promise-like value. */
  ghost function QuietTrace(c: Ctx, err: JsValue): seq<Step>
  {
    var ls := Listed(c.errors);
    Calls(c.self, ErrorKey, [err], ls)
      + (if AnyPromiseLike(c.beh, ls, [err]) then AwaitSteps(0, |ls|) else [])
  }

  /** Awaiting slots none of which rejects emits nothing and needs no fuel. */
  lemma {:induction false} SettleWithoutRejections(c: Ctx, rec: Recovery, slots: seq<Slot>, from: nat, fuel: nat)
    requires forall i :: 0 <= i < |slots| ==> SlotSettlement(slots[i]).Fulfilled?
    ensures HandlePromises(c, rec, slots, from, fuel) == Some(AwaitSteps(from, |slots|))
    decreases |slots|
  {
    if |slots| != 0 {
      assert SlotSettlement(slots[0]).Fulfilled?;
      SettleWithoutRejections(c, rec, slots[1..], from + 1, fuel);
    }
  }

  lemma {:induction false} QuietSlots(c: Ctx, ls: seq<ListenerId>, args: seq<JsValue>)
    requires forall i :: 0 <= i < |ls| ==> c.beh(ls[i], args).Returned? && !Settle(c.beh(ls[i], args).value).Rejected?
    ensures forall i :: 0 <= i < |Slots(c.beh, ls, args)| ==> SlotSettlement(Slots(c.beh, ls, args)[i]).Fulfilled?
    decreases |ls|
  {
    if |ls| != 0 {
      QuietSlots(c, ls[1..], args);
    }
  }

  /** With quiet 'error' listeners an 'error' dispatch completes with any
      fuel, emits nothing itself, and does not depend on the recovery rule. */
  lemma QuietErrorDispatch(c: Ctx, rec: Recovery, err: JsValue, fuel: nat)
    requires QuietErrorListeners(c)
    ensures EmitAsyncCore(c, rec, ErrorKey, c.errors, [err], fuel) == Some(QuietTrace(c, err))
  {
    var ls := Listed(c.errors);
    if c.errors.Some? {
      assert forall i :: 0 <= i < |ls| ==> c.beh(ls[i], [err]).Returned? && !Settle(c.beh(ls[i], [err]).value).Rejected? by {
        forall i | 0 <= i < |ls|
          ensures c.beh(ls[i], [err]).Returned? && !Settle(c.beh(ls[i], [err]).value).Rejected?
        {
          assert ls[i] in ls;
        }
      }
      var r := FastLoop(c, ErrorKey, [err], ls);
      assert r.Completed?;
      var b := r.batch;
      QuietSlots(c, ls, [err]);
      SlotsLength(c.beh, ls, [err]);
      SettleWithoutRejections(c, rec, b.slots, 0, fuel);
      if !b.thenables {
        assert b.trace + [] == b.trace;
      }
    } else {
      assert !AnyPromiseLike(c.beh, ls, [err]);
      assert QuietTrace(c, err) == [];
    }
  }

  /** With quiet 'error' listeners an emission completes whenever there is
      fuel for one nested level, and does not depend on the recovery rule. */
  lemma QuietEmission(c: Ctx, rec: Recovery, err: JsValue, fuel: nat)
    requires QuietErrorListeners(c) && fuel >= 1
    ensures EmitError(c, rec, err, fuel) == Some(ErrorEmitted(err, QuietTrace(c, err)))
  {
    QuietErrorDispatch(c, rec, err, fuel - 1);
  }

  lemma {:induction false} SafeLoopCompletes(c: Ctx, rec: Recovery, key: Key, args: seq<JsValue>, pending: seq<ListenerId>, fuel: nat)
    requires QuietErrorListeners(c) && fuel >= 1
    ensures SafeLoop(c, rec, key, args, pending, fuel).Some?
    decreases |pending|
  {
    if |pending| != 0 {
      SafeLoopCompletes(c, rec, key, args, pending[1..], fuel);
      if c.beh(pending[0], args).Threw? {
        QuietEmission(c, rec, c.beh(pending[0], args).error, fuel);
      }
    }
  }

  lemma {:induction false} HandlePromisesCompletes(c: Ctx, rec: Recovery, slots: seq<Slot>, from: nat, fuel: nat)
    requires QuietErrorListeners(c) && fuel >= 1
    ensures HandlePromises(c, rec, slots, from, fuel).Some?
    decreases |slots|
  {
    if |slots| != 0 {
      HandlePromisesCompletes(c, rec, slots[1..], from + 1, fuel);
      if SlotSettlement(slots[0]).Rejected? {
        QuietEmission(c, rec, SlotSettlement(slots[0]).reason, fuel);
      }
    }
  }

  /** If 'error' listeners never fail, every dispatch completes, with either
      recovery rule, given fuel for one nested level. */
  lemma DispatchCompletes(c: Ctx, rec: Recovery, key: Key, entry: Option<seq<ListenerId>>, args: seq<JsValue>, fuel: nat)
    ensures QuietErrorListeners(c) && fuel >= 1 ==> EmitAsyncCore(c, rec, key, entry, args, fuel).Some?
  {
    if QuietErrorListeners(c) && fuel >= 1 && entry.Some? {
      match FastLoop(c, key, args, entry.value)
      case Completed(b) =>
        HandlePromisesCompletes(c, rec, b.slots, 0, fuel);
      case Interrupted(b, _, e, rest) =>
        QuietEmission(c, rec, e, fuel);
        SafeLoopCompletes(c, rec, key, args, rest, fuel);
        var slots := b.slots + Holes(|rest|);
        HandlePromisesCompletes(c, rec, slots, 0, fuel);
        HandlePromisesCompletes(c, rec, b.slots, 0, fuel);
        if |rest| != 0 && !(rec.ShortCircuit? && b.thenables) {
          var s := SafeLoop(c, rec, key, args, rest, fuel).value;
          HandlePromisesCompletes(c, rec, b.slots + s.slots, 0, fuel);
        }
    }
  }

  /** A listener among `ls` throws when given `args`. */
  ghost predicate SomeThrow(beh: Behaviour, ls: seq<ListenerId>, args: seq<JsValue>)
  {
    exists i :: 0 <= i < |ls| && beh(ls[i], args).Threw?
  }

  lemma FastLoopStopsAtThrow(c: Ctx, key: Key, args: seq<JsValue>, ls: seq<ListenerId>)
    requires SomeThrow(c.beh, ls, args)
    ensures FastLoop(c, key, args, ls).Interrupted?
  {
    var i :| 0 <= i < |ls| && c.beh(ls[i], args).Threw?;
    assert !NoThrow(c.beh, ls, args);
  }

  /** An 'error' listener that throws whatever it is given. */
  ghost predicate AlwaysThrowingErrorListener(c: Ctx)
  {
    exists l :: l in Listed(c.errors) && forall a :: c.beh(l, a).Threw?
  }

  /** With such a listener, the fast loop of an 'error' dispatch is always
      interrupted. */
  lemma ErrorFastLoopInterrupted(c: Ctx, err: JsValue)
    requires AlwaysThrowingErrorListener(c)
    ensures c.errors.Some? && FastLoop(c, ErrorKey, [err], c.errors.value).Interrupted?
  {
    var l :| l in Listed(c.errors) && forall a :: c.beh(l, a).Threw?;
    var ls := Listed(c.errors);
    var i :| 0 <= i < |ls| && ls[i] == l;
    assert c.beh(ls[i], [err]).Threw?;
    FastLoopStopsAtThrow(c, ErrorKey, [err], ls);
  }

  /** With an 'error' listener that always throws, no error emission ever
      completes, whatever the fuel: the source recurses without end. */
  lemma {:induction false} EmissionNeverCompletes(c: Ctx, rec: Recovery, err: JsValue, fuel: nat)
    requires AlwaysThrowingErrorListener(c)
    ensures EmitError(c, rec, err, fuel).None?
    decreases fuel
  {
    if fuel != 0 {
      ErrorFastLoopInterrupted(c, err);
      var e := FastLoop(c, ErrorKey, [err], c.errors.value).error;
      EmissionNeverCompletes(c, rec, e, fuel - 1);
    }
  }

  /** So a dispatch in which some listener throws never completes either. */
  lemma DispatchNeverCompletes(c: Ctx, rec: Recovery, key: Key, entry: Option<seq<ListenerId>>, args: seq<JsValue>, fuel: nat)
    requires AlwaysThrowingErrorListener(c)
    requires entry.Some? && SomeThrow(c.beh, entry.value, args)
    ensures EmitAsyncCore(c, rec, key, entry, args, fuel).None?
  {
    FastLoopStopsAtThrow(c, key, args, entry.value);
    EmissionNeverCompletes(c, rec, FastLoop(c, key, args, entry.value).error, fuel);
  }
}

=== FILE: dispatch.dfy ===
/**
 * The dispatch algorithm of `AsyncEmitter`: `emitAsync` / `#emitAsync`,
 * its fast loop, the recovery loop `#emitAsyncSafe`, the settlement loop
 * `#handlePromises`, and `#emitError`, which re-enters dispatch on the
 * 'error' key.
 *
 * Every listener call is replaced by its abstract outcome (`Behaviour`),
 * every `await` is a sequential step, and dispatch returns the trace of
 * what it did.  The recursion through 'error' is bounded by `fuel`, the
 * number of nested 'error' dispatches allowed; `None` means the bound was
 * reached (the source would recurse without end).
 */
module Dispatch {
  import opened Wrappers
  import opened Values
  import opened Registry
  import opened Events
  import opened Reference

  /** What happens after the first synchronous throw when more listeners
      remain.  `ShortCircuit` is the code as written: the recovery loop sits
      on the right of `thenables ||= ...`, so it is skipped whenever the flag
      is already set.  `AlwaysRecover` runs the recovery loop every time and
      ORs its flag in. */
  datatype Recovery = ShortCircuit | AlwaysRecover

  /** What stays fixed during one dispatch: the receiver, the 'error' entry of
      the table (the table does not change while dispatching) and the way
      listeners behave. */
  datatype Ctx = Ctx(self: EmitterId, errors: Option<seq<ListenerId>>, beh: Behaviour)

  /** The context of a dispatch on an emitter. */
  function CtxOf(em: AsyncEmitter, beh: Behaviour): Ctx
  {
    Ctx(em.self, Lookup(em, ErrorKey), beh)
  }

  /** The trace so far, the result array `ps` and the `thenables` flag. */
  datatype Batch = Batch(trace: seq<Step>, slots: seq<Slot>, thenables: bool)

  /** How the fast loop ends: every listener called, or listener `at` threw
      `error`, leaving `rest` uncalled. */
  datatype FastExit =
    | Completed(batch: Batch)
    | Interrupted(batch: Batch, at: nat, error: JsValue, rest: seq<ListenerId>)

  /** The fast loop: calls the listeners in order, capturing results and
      setting the flag for promise-like ones, until one throws. */
  function FastLoop(c: Ctx, key: Key, args: seq<JsValue>, pending: seq<ListenerId>): (r: FastExit)
    ensures r.Completed? ==>
      && NoThrow(c.beh, pending, args)
      && r.batch.trace == Calls(c.self, key, args, pending)
      && r.batch.slots == Slots(c.beh, pending, args)
      && (r.batch.thenables <==> AnyPromiseLike(c.beh, pending, args))
    ensures r.Interrupted? ==>
      && r.at < |pending|
      && c.beh(pending[r.at], args) == Threw(r.error)
      && r.rest == pending[r.at + 1..]
      && NoThrow(c.beh, pending[..r.at], args)
      && r.batch.trace == Calls(c.self, key, args, pending[..r.at + 1])
      && r.batch.slots == Slots(c.beh, pending[..r.at + 1], args)
      && (r.batch.thenables <==> AnyPromiseLike(c.beh, pending[..r.at], args))
    decreases |pending|
  {
    if |pending| == 0 then Completed(Batch([], [], false))
    else
      var call := Call(c.self, key, pending[0], args);
      match c.beh(pending[0], args)
      case Threw(e) => Interrupted(Batch([call], [None], false), 0, e, pending[1..])
      case Returned(v) =>
        match FastLoop(c, key, args, pending[1..])
        case Completed(b) =>
          HeadTail(c.beh, pending, args);
          Completed(Batch([call] + b.trace, [Some(v)] + b.slots, IsPromiseLike(v) || b.thenables))
        case Interrupted(b, at, e, rest) =>
          PrefixCons(c.self, key, c.beh, args, pending, at + 1);
          PrefixCons(c.self, key, c.beh, args, pending, at);
          assert pending[1..][at] == pending[at + 1];
          Interrupted(Batch([call] + b.trace, [Some(v)] + b.slots, IsPromiseLike(v) || b.thenables), at + 1, e, rest)
  }

  /** The quantified reference descriptions of a non-empty `ls`, split into
      its first listener and the rest. */
  lemma HeadTail(beh: Behaviour, ls: seq<ListenerId>, args: seq<JsValue>)
    requires |ls| > 0
    ensures AnyPromiseLike(beh, ls, args) <==> CapturesPromiseLike(beh(ls[0], args)) || AnyPromiseLike(beh, ls[1..], args)
    ensures NoThrow(beh, ls, args) <==> beh(ls[0], args).Returned? && NoThrow(beh, ls[1..], args)
  {
    assert ls == [ls[0]] + ls[1..];
    AnyPromiseLikeAppend(beh, [ls[0]], ls[1..], args);
    if beh(ls[0], args).Returned? && NoThrow(beh, ls[1..], args) {
      forall i | 1 <= i < |ls|
        ensures beh(ls[i], args).Returned?
      {
        assert ls[i] == ls[1..][i - 1];
      }
    }
    if NoThrow(beh, ls, args) {
      forall i | 0 <= i < |ls| - 1
        ensures beh(ls[1..][i], args).Returned?
      {
        assert ls[1..][i] == ls[i + 1];
      }
    }
  }

  /** The reference descriptions of a non-empty prefix of `ls`, split into
      its first listener and the rest. */
  lemma PrefixCons(self: EmitterId, key: Key, beh: Behaviour, args: seq<JsValue>, ls: seq<ListenerId>, k: nat)
    requires k < |ls|
    ensures Calls(self, key, args, ls[..k + 1]) == [Call(self, key, ls[0], args)] + Calls(self, key, args, ls[1..][..k])
    ensures Slots(beh, ls[..k + 1], args) == [SlotOf(beh(ls[0], args))] + Slots(beh, ls[1..][..k], args)
    ensures AnyPromiseLike(beh, ls[..k + 1], args) <==> CapturesPromiseLike(beh(ls[0], args)) || AnyPromiseLike(beh, ls[1..][..k], args)
    ensures NoThrow(beh, ls[..k + 1], args) <==> beh(ls[0], args).Returned? && NoThrow(beh, ls[1..][..k], args)
    ensures ls[1..][k..] == ls[k + 1..]
  {
    assert ls[..k + 1] == [ls[0]] + ls[1..][..k];
    assert ls[..k + 1][1..] == ls[1..][..k];
    AnyPromiseLikeAppend(beh, [ls[0]], ls[1..][..k], args);
    if beh(ls[0], args).Returned? && NoThrow(beh, ls[1..][..k], args) {
      forall i | 1 <= i < k + 1
        ensures beh(ls[i], args).Returned?
      {
        assert ls[i] == ls[1..][..k][i - 1];
      }
    }
    if NoThrow(beh, ls[..k + 1], args) {
      assert ls[..k + 1][0] == ls[0];
      forall i | 0 <= i < k
        ensures beh(ls[1..][..k][i], args).Returned?
      {
        assert ls[1..][..k][i] == ls[..k + 1][i + 1];
      }
    }
  }

  /** `#emitError(err)`: dispatches `[err]` on the 'error' key and waits for
      that dispatch to finish. */
  function EmitError(c: Ctx, rec: Recovery, err: JsValue, fuel: nat): (r: Option<Step>)
    ensures r.Some? ==> r.value.ErrorEmitted? && r.value.reason == err
    decreases fuel, 0, 0
  {
    if fuel == 0 then None
    else
      match EmitAsyncCore(c, rec, ErrorKey, c.errors, [err], fuel - 1)
      case None => None
      case Some(t) => Some(ErrorEmitted(err, t))
  }

  /** `#emitAsyncSafe`: calls the remaining listeners one by one, each in its
      own try/catch; a throw is emitted on 'error' before the next listener
      is called.  Returns its own flag, starting from false. */
  function SafeLoop(c: Ctx, rec: Recovery, key: Key, args: seq<JsValue>, pending: seq<ListenerId>, fuel: nat): (r: Option<Batch>)
    ensures r.Some? ==>
      && Skeleton(r.value.trace) == PhaseA(c.beh, pending, args)
      && r.value.slots == Slots(c.beh, pending, args)
      && (r.value.thenables <==> AnyPromiseLike(c.beh, pending, args))
    ensures r.Some? ==>
      && Invocations(Skeleton(r.value.trace)) == pending
      && Reports(Skeleton(r.value.trace)) == Thrown(c.beh, pending, args)
    decreases fuel, 1, |pending|
  {
    PhaseAProjections(c.beh, pending, args);
    if |pending| == 0 then Some(Batch([], [], false))
    else
      var call := Call(c.self, key, pending[0], args);
      match c.beh(pending[0], args)
      case Threw(e) =>
        (match EmitError(c, rec, e, fuel)
         case None => None
         case Some(st) =>
           match SafeLoop(c, rec, key, args, pending[1..], fuel)
           case None => None
           case Some(b) => Some(Batch([call, st] + b.trace, [None] + b.slots, b.thenables)))
      case Returned(v) =>
        match SafeLoop(c, rec, key, args, pending[1..], fuel)
        case None => None
        case Some(b) => Some(Batch([call] + b.trace, [Some(v)] + b.slots, IsPromiseLike(v) || b.thenables))
  }

  /** `#handlePromises`: awaits every slot in index order (holes and plain
      values included) and emits each rejection on 'error' before moving
      on.  `from` is the index of `slots[0]` in the result array. */
  function HandlePromises(c: Ctx, rec: Recovery, slots: seq<Slot>, from: nat, fuel: nat): (r: Option<seq<Step>>)
    ensures r.Some? ==> Skeleton(r.value) == PhaseB(slots, from)
    ensures r.Some? ==>
      && Invocations(Skeleton(r.value)) == []
      && Settlements(Skeleton(r.value)) == Range(from, |slots|)
      && Reports(Skeleton(r.value)) == Rejections(slots)
    decreases fuel, 1, |slots|
  {
    PhaseBProjections(slots, from);
    if |slots| == 0 then Some([])
    else
      match SlotSettlement(slots[0])
      case Fulfilled =>
        (match HandlePromises(c, rec, slots[1..], from + 1, fuel)
         case None => None
         case Some(t) => Some([Awaited(from)] + t))
      case Rejected(e) =>
        match EmitError(c, rec, e, fuel)
        case None => None
        case Some(st) =>
          match HandlePromises(c, rec, slots[1..], from + 1, fuel)
          case None => None
          case Some(t) => Some([Awaited(from), st] + t)
  }

  /** The last line of `#emitAsync`: settle the result array only when the
      flag is set. */
  function Finish(c: Ctx, rec: Recovery, b: Batch, fuel: nat): (r: Option<seq<Step>>)
    ensures r.Some? ==> Skeleton(r.value) == Skeleton(b.trace) + (if b.thenables then PhaseB(b.slots, 0) else [])
    ensures r.Some? ==> b.trace <= r.value
    decreases fuel, 2, 0
  {
    if b.thenables then
      match HandlePromises(c, rec, b.slots, 0, fuel)
      case None => None
      case Some(t) => SkeletonAppend(b.trace, t); Some(b.trace + t)
    else Some(b.trace)
  }

  /** `#emitAsync(eventName, args)` with the key's table entry already looked
      up: nothing to do for a missing entry; otherwise the fast loop, then
      on the first throw its emission and the recovery loop, then
      settlement. */
  function EmitAsyncCore(c: Ctx, rec: Recovery, key: Key, entry: Option<seq<ListenerId>>, args: seq<JsValue>, fuel: nat): (r: Option<seq<Step>>)
    ensures entry.None? ==> r == Some([])
    ensures r.Some? && entry.Some? && |entry.value| > 0 ==>
      |r.value| > 0 && r.value[0] == Call(c.self, key, entry.value[0], args)
    decreases fuel, 3, 0
  {
    if entry.None? then Some([])
    else
      match FastLoop(c, key, args, entry.value)
      case Completed(b) => Finish(c, rec, b, fuel)
      case Interrupted(b, _, e, rest) =>
        match EmitError(c, rec, e, fuel)
        case None => None
        case Some(st) =>
          var head := Batch(b.trace + [st], b.slots, b.thenables);
          if |rest| == 0 then Finish(c, rec, head, fuel)
          else if rec.ShortCircuit? && head.thenables then
            Finish(c, rec, Batch(head.trace, head.slots + Holes(|rest|), true), fuel)
          else
            match SafeLoop(c, rec, key, args, rest, fuel)
            case None => None
            case Some(s) =>
              Finish(c, rec, Batch(head.trace + s.trace, head.slots + s.slots, head.thenables || s.thenables), fuel)
  }
}

=== FILE: events.dfy ===
/**
 * What a listener call does, and the trace a dispatch leaves behind.
 */
module Events {
  import opened Wrappers
  import opened Values
  import opened Registry

  /** The abstract effect of calling one listener: it returns a value
      (possibly a thenable that settles later) or throws synchronously. */
  datatype Outcome = Returned(value: JsValue) | Threw(error: JsValue)

  /** How each listener behaves when called with given arguments. */
  type Behaviour = (ListenerId, seq<JsValue>) -> Outcome

  /** One observable step of a dispatch.
      - `Call`: a listener invoked with a receiver and the argument list;
      - `Awaited`: slot `slot` of the result array awaited during settlement;
      - `ErrorEmitted`: a dispatch of `reason` on the 'error' key, together
        with everything that nested dispatch did; it has completed before
        the next step starts. */
  datatype Step =
    | Call(receiver: EmitterId, key: Key, listener: ListenerId, args: seq<JsValue>)
    | Awaited(slot: nat)
    | ErrorEmitted(reason: JsValue, nested: seq<Step>)

  /** One entry of the result array `ps`: the captured return value, or a
      hole left by a listener that threw (or was never called). */
  type Slot = Option<JsValue>

  /** What a call leaves in its slot. */
  function SlotOf(o: Outcome): Slot
  {
    if o.Returned? then Some(o.value) else None
  }

  /** How awaiting a slot ends; a hole awaits as `undefined`. */
  function SlotSettlement(s: Slot): Settlement
  {
    if s.Some? then Settle(s.value) else Fulfilled
  }

  /** A call whose captured result sets the `thenables` flag. */
  predicate CapturesPromiseLike(o: Outcome)
  {
    o.Returned? && IsPromiseLike(o.value)
  }
}

=== FILE: faithfulness.dfy ===
/**
 * The main theorem: every trace a dispatch produces follows the reference
 * description, at the top level and inside every nested 'error' dispatch.
 * With the recovery loop always run that is the reference itself; for the
 * code as written it is the reference cut after the first thrower in the
 * skipping case.
 */
module Faithfulness {
  import opened Wrappers
  import opened Values
  import opened Registry
  import opened Events
  import opened Reference
  import opened Dispatch

  /** The top-level marks of a dispatch under `rec`: the reference for the
      corrected dispatch; for the written one, the reference outside the
      skipping case and the reference cut after the first thrower inside
      it. */
  ghost predicate Shaped(rec: Recovery, beh: Behaviour, ls: seq<ListenerId>, args: seq<JsValue>, m: seq<Mark>)
  {
    if rec.AlwaysRecover? then m == Expected(beh, ls, args)
    else
      && ((forall i: nat :: !SkipsRecovery(beh, ls, args, i)) ==> m == Expected(beh, ls, args))
      && (forall i: nat :: SkipsRecovery(beh, ls, args, i) ==> m == SkippedExpected(beh, ls, i, args))
  }

  /** A step is as the reference describes it: calls go to the emitter as
      receiver with the dispatch's key and arguments, and an error emission
      is itself a faithful dispatch of `[reason]` on the 'error' key under
      the same recovery rule. */
  ghost predicate StepOk(c: Ctx, rec: Recovery, key: Key, args: seq<JsValue>, st: Step)
    decreases st, 0
  {
    match st
    case Call(receiver, k, _, a) => receiver == c.self && k == key && a == args
    case Awaited(_) => true
    case ErrorEmitted(e, nested) => Faithful(c, rec, ErrorKey, Listed(c.errors), [e], nested)
  }

  /** A trace is a faithful dispatch under `rec` of `args` on `key` to
      listeners `ls`. */
  ghost predicate Faithful(c: Ctx, rec: Recovery, key: Key, ls: seq<ListenerId>, args: seq<JsValue>, t: seq<Step>)
    decreases t, 1
  {
    && Shaped(rec, c.beh, ls, args, Skeleton(t))
    && StepsOk(c, rec, key, args, t)
  }

  /** Every step of `t` is as the reference describes it. */
  ghost predicate StepsOk(c: Ctx, rec: Recovery, key: Key, args: seq<JsValue>, t: seq<Step>)
    decreases t, 0
  {
    forall i :: 0 <= i < |t| ==> StepOk(c, rec, key, args, t[i])
  }

  lemma StepsOkAppend(c: Ctx, rec: Recovery, key: Key, args: seq<JsValue>, a: seq<Step>, b: seq<Step>)
    requires StepsOk(c, rec, key, args, a) && StepsOk(c, rec, key, args, b)
    ensures StepsOk(c, rec, key, args, a + b)
  {
    forall i | 0 <= i < |a + b|
      ensures StepOk(c, rec, key, args, (a + b)[i])
    {
      if i < |a| {
        assert (a + b)[i] == a[i];
      } else {
        assert (a + b)[i] == b[i - |a|];
      }
    }
  }

  lemma {:induction false} CallsOk(c: Ctx, rec: Recovery, key: Key, args: seq<JsValue>, ls: seq<ListenerId>)
    ensures StepsOk(c, rec, key, args, Calls(c.self, key, args, ls))
    decreases |ls|
  {
    if |ls| != 0 {
      CallsOk(c, rec, key, args, ls[1..]);
      StepsOkAppend(c, rec, key, args, [Call(c.self, key, ls[0], args)], Calls(c.self, key, args, ls[1..]));
    }
  }

  /** The reference descriptions of `ls` split at any index. */
  lemma SplitAt(beh: Behaviour, ls: seq<ListenerId>, k: nat, args: seq<JsValue>)
    requires k <= |ls|
    ensures PhaseA(beh, ls, args) == PhaseA(beh, ls[..k], args) + PhaseA(beh, ls[k..], args)
    ensures Slots(beh, ls, args) == Slots(beh, ls[..k], args) + Slots(beh, ls[k..], args)
    ensures AnyPromiseLike(beh, ls, args) <==> AnyPromiseLike(beh, ls[..k], args) || AnyPromiseLike(beh, ls[k..], args)
  {
    assert ls == ls[..k] + ls[k..];
    PhaseAAppend(beh, ls[..k], ls[k..], args);
    SlotsAppend(beh, ls[..k], ls[k..], args);
    AnyPromiseLikeAppend(beh, ls[..k], ls[k..], args);
  }

  /** What the fast loop and the first emission leave behind, described by
      the reference up to and including the listener that threw. */
  lemma InterruptedHead(c: Ctx, key: Key, args: seq<JsValue>, ls: seq<ListenerId>, at: nat, e: JsValue, st: Step)
    requires at < |ls| && c.beh(ls[at], args) == Threw(e)
    requires NoThrow(c.beh, ls[..at], args)
    requires st.ErrorEmitted? && st.reason == e
    ensures Skeleton(Calls(c.self, key, args, ls[..at + 1]) + [st]) == PhaseA(c.beh, ls[..at + 1], args)
    ensures AnyPromiseLike(c.beh, ls[..at], args) <==> AnyPromiseLike(c.beh, ls[..at + 1], args)
  {
    var done := ls[..at];
    var x := ls[at];
    var pre := Calls(c.self, key, args, done);
    var call := Call(c.self, key, x, args);
    assert ls[..at + 1] == done + [x];
    CallsAppend(c.self, key, args, done, [x]);
    assert Calls(c.self, key, args, [x]) == [call] by {
      assert [x][1..] == [];
    }
    assert Calls(c.self, key, args, done + [x]) + [st] == pre + [call, st];
    CallsSkeleton(c.self, key, c.beh, done, args);
    SkeletonAppend(pre, [call, st]);
    assert Skeleton([call, st]) == [Invoked(x), Reported(e)] by {
      assert Skeleton([call]) == [Invoked(x)] by { assert [call][1..] == []; }
      assert Skeleton([st]) == [Reported(e)] by { assert [st][1..] == []; }
      assert [call] + [st] == [call, st];
      SkeletonAppend([call], [st]);
    }
    PhaseAAppend(c.beh, done, [x], args);
    assert PhaseA(c.beh, [x], args) == [Invoked(x), Reported(e)] by {
      assert [x][1..] == [];
    }
    AnyPromiseLikeAppend(c.beh, done, [x], args);
    assert !AnyPromiseLike(c.beh, [x], args);
  }

  /** Batch `b` is what the invocation stage over `ls` leaves behind: its
      trace has the reference marks, its slots the reference results, and
      its flag says whether any of them is promise-like. */
  ghost predicate Describes(beh: Behaviour, ls: seq<ListenerId>, args: seq<JsValue>, b: Batch)
  {
    && Skeleton(b.trace) == PhaseA(beh, ls, args)
    && b.slots == Slots(beh, ls, args)
    && (b.thenables <==> AnyPromiseLike(beh, ls, args))
  }

  /** Batches for the two halves of `ls` join into a batch for all of it. */
  lemma Join(beh: Behaviour, ls: seq<ListenerId>, k: nat, args: seq<JsValue>, h: Batch, s: Batch)
    requires k <= |ls|
    requires Describes(beh, ls[..k], args, h) && Describes(beh, ls[k..], args, s)
    ensures Describes(beh, ls, args, Batch(h.trace + s.trace, h.slots + s.slots, h.thenables || s.thenables))
  {
    SplitAt(beh, ls, k, args);
    SkeletonAppend(h.trace, s.trace);
  }

  /** A successful dispatch that runs the recovery loop whenever listeners
      remain after the first throw hands settlement a batch that the
      invocation stage over all of `ls` describes.  The corrected dispatch
      always does; the written one does outside the skipping case. */
  lemma DescribedBatch(c: Ctx, rec: Recovery, key: Key, ls: seq<ListenerId>, args: seq<JsValue>, fuel: nat) returns (b: Batch)
    requires EmitAsyncCore(c, rec, key, Some(ls), args, fuel).Some?
    requires rec.AlwaysRecover? || forall i: nat :: !SkipsRecovery(c.beh, ls, args, i)
    ensures Describes(c.beh, ls, args, b)
    ensures EmitAsyncCore(c, rec, key, Some(ls), args, fuel) == Finish(c, rec, b, fuel)
  {
    match FastLoop(c, key, args, ls)
    case Completed(fast) =>
      CallsSkeleton(c.self, key, c.beh, ls, args);
      b := fast;
    case Interrupted(fast, at, e, rest) =>
      var st := EmitError(c, rec, e, fuel).value;
      var head := Batch(fast.trace + [st], fast.slots, fast.thenables);
      InterruptedHead(c, key, args, ls, at, e, st);
      assert Describes(c.beh, ls[..at + 1], args, head);
      if |rest| == 0 {
        assert ls[..at + 1] == ls;
        b := head;
      } else {
        assert rec.ShortCircuit? ==> !SkipsRecovery(c.beh, ls, args, at);
        var s := SafeLoop(c, rec, key, args, rest, fuel).value;
        Join(c.beh, ls, at + 1, args, head, s);
        b := Batch(head.trace + s.trace, head.slots + s.slots, head.thenables || s.thenables);
      }
  }

  /** A successful dispatch hands settlement a batch whose steps are as
      the reference describes them. */
  lemma OkBatch(c: Ctx, rec: Recovery, key: Key, ls: seq<ListenerId>, args: seq<JsValue>, fuel: nat) returns (b: Batch)
    requires EmitAsyncCore(c, rec, key, Some(ls), args, fuel).Some?
    ensures StepsOk(c, rec, key, args, b.trace)
    ensures EmitAsyncCore(c, rec, key, Some(ls), args, fuel) == Finish(c, rec, b, fuel)
    decreases fuel, 2, 1
  {
    match FastLoop(c, key, args, ls)
    case Completed(fast) =>
      CallsOk(c, rec, key, args, ls);
      b := fast;
    case Interrupted(fast, at, e, rest) =>
      var st := EmitError(c, rec, e, fuel).value;
      var head := Batch(fast.trace + [st], fast.slots, fast.thenables);
      EmitErrorOk(c, rec, e, fuel);
      CallsOk(c, rec, key, args, ls[..at + 1]);
      assert StepsOk(c, rec, key, args, [st]);
      StepsOkAppend(c, rec, key, args, fast.trace, [st]);
      if |rest| == 0 {
        b := head;
      } else if rec.ShortCircuit? && head.thenables {
        b := Batch(head.trace, head.slots + Holes(|rest|), true);
      } else {
        var s := SafeLoop(c, rec, key, args, rest, fuel).value;
        SafeLoopOk(c, rec, key, args, rest, fuel);
        StepsOkAppend(c, rec, key, args, head.trace, s.trace);
        b := Batch(head.trace + s.trace, head.slots + s.slots, head.thenables || s.thenables);
      }
  }

  /** The top level of a successful dispatch is the reference sequence of
      marks: invocation stage, then the settlement stage exactly when some
      listener returned a promise-like value.  This holds for the corrected
      dispatch always, and for the written one outside the skipping case. */
  lemma DispatchSkeleton(c: Ctx, rec: Recovery, key: Key, entry: Option<seq<ListenerId>>, args: seq<JsValue>, fuel: nat)
    requires rec.AlwaysRecover? || forall i: nat :: !SkipsRecovery(c.beh, Listed(entry), args, i)
    ensures var r := EmitAsyncCore(c, rec, key, entry, args, fuel);
      r.Some? ==> Skeleton(r.value) == Expected(c.beh, Listed(entry), args)
  {
    if entry.Some? && EmitAsyncCore(c, rec, key, entry, args, fuel).Some? {
      assert Listed(entry) == entry.value;
      var b := DescribedBatch(c, rec, key, entry.value, args, fuel);
    }
  }

  /** The fast loop stops at the first listener that throws. */
  lemma FastLoopStopsAtFirstThrow(c: Ctx, key: Key, args: seq<JsValue>, ls: seq<ListenerId>, i: nat)
    requires i < |ls| && NoThrow(c.beh, ls[..i], args) && c.beh(ls[i], args).Threw?
    ensures FastLoop(c, key, args, ls).Interrupted? && FastLoop(c, key, args, ls).at == i
  {
    var r := FastLoop(c, key, args, ls);
    assert !NoThrow(c.beh, ls, args) by {
      assert c.beh(ls[i], args).Threw?;
    }
    assert r.Interrupted?;
    assert forall j :: 0 <= j < i ==> c.beh(ls[j], args).Returned? by {
      forall j | 0 <= j < i
        ensures c.beh(ls[j], args).Returned?
      {
        assert ls[..i][j] == ls[j];
      }
    }
    assert forall j :: 0 <= j < r.at ==> c.beh(ls[j], args).Returned? by {
      forall j | 0 <= j < r.at
        ensures c.beh(ls[j], args).Returned?
      {
        assert ls[..r.at][j] == ls[j];
      }
    }
  }

  /** In the skipping case at listener `i` the written dispatch hands
      settlement the calls up to the thrower and its report, with holes for
      the listeners never called, and the flag set. */
  lemma SkippedBatch(c: Ctx, key: Key, ls: seq<ListenerId>, args: seq<JsValue>, i: nat, fuel: nat) returns (b: Batch)
    requires SkipsRecovery(c.beh, ls, args, i)
    requires EmitAsyncCore(c, ShortCircuit, key, Some(ls), args, fuel).Some?
    ensures Skeleton(b.trace) == PhaseA(c.beh, ls[..i + 1], args)
    ensures b.slots == Slots(c.beh, ls[..i + 1], args) + Holes(|ls| - i - 1) && b.thenables
    ensures EmitAsyncCore(c, ShortCircuit, key, Some(ls), args, fuel) == Finish(c, ShortCircuit, b, fuel)
  {
    FastLoopStopsAtFirstThrow(c, key, args, ls, i);
    var fast := FastLoop(c, key, args, ls);
    assert EmitError(c, ShortCircuit, fast.error, fuel).Some?;
    var st := EmitError(c, ShortCircuit, fast.error, fuel).value;
    InterruptedHead(c, key, args, ls, i, fast.error, st);
    assert |fast.rest| == |ls| - i - 1;
    b := Batch(fast.batch.trace + [st], fast.batch.slots + Holes(|fast.rest|), true);
  }

  /** The dispatch as written, in the skipping case at listener `i`: the
      invocation stage up to the thrower and its report, then settlement of
      every slot, the skipped listeners leaving holes. */
  lemma SkippedSkeleton(c: Ctx, key: Key, ls: seq<ListenerId>, args: seq<JsValue>, i: nat, fuel: nat)
    requires SkipsRecovery(c.beh, ls, args, i)
    ensures var r := EmitAsyncCore(c, ShortCircuit, key, Some(ls), args, fuel);
      r.Some? ==> Skeleton(r.value) == SkippedExpected(c.beh, ls, i, args)
  {
    if EmitAsyncCore(c, ShortCircuit, key, Some(ls), args, fuel).Some? {
      var b := SkippedBatch(c, key, ls, args, i, fuel);
    }
  }

  /** The top level of the dispatch as written: the reference outside the
      skipping case, the skipped description inside it. */
  lemma WrittenSkeleton(c: Ctx, key: Key, entry: Option<seq<ListenerId>>, args: seq<JsValue>, fuel: nat)
    ensures var r := EmitAsyncCore(c, ShortCircuit, key, entry, args, fuel);
      r.Some? && (forall i: nat :: !SkipsRecovery(c.beh, Listed(entry), args, i)) ==>
        Skeleton(r.value) == Expected(c.beh, Listed(entry), args)
    ensures var r := EmitAsyncCore(c, ShortCircuit, key, entry, args, fuel);
      forall i: nat :: r.Some? && SkipsRecovery(c.beh, Listed(entry), args, i) ==>
        Skeleton(r.value) == SkippedExpected(c.beh, Listed(entry), i, args)
  {
    if forall i: nat :: !SkipsRecovery(c.beh, Listed(entry), args, i) {
      DispatchSkeleton(c, ShortCircuit, key, entry, args, fuel);
    }
    forall i: nat | SkipsRecovery(c.beh, Listed(entry), args, i)
      ensures var r := EmitAsyncCore(c, ShortCircuit, key, entry, args, fuel);
        r.Some? ==> Skeleton(r.value) == SkippedExpected(c.beh, Listed(entry), i, args)
    {
      assert entry.Some?;
      SkippedSkeleton(c, key, entry.value, args, i, fuel);
    }
  }

  /** An error emission that completes is a faithful 'error' dispatch. */
  lemma EmitErrorOk(c: Ctx, rec: Recovery, err: JsValue, fuel: nat)
    ensures var r := EmitError(c, rec, err, fuel);
      r.Some? ==> Faithful(c, rec, ErrorKey, Listed(c.errors), [err], r.value.nested)
    decreases fuel, 0, 0
  {
    if fuel != 0 {
      DispatchOk(c, rec, ErrorKey, c.errors, [err], fuel - 1);
    }
  }

  lemma {:induction false} SafeLoopOk(c: Ctx, rec: Recovery, key: Key, args: seq<JsValue>, pending: seq<ListenerId>, fuel: nat)
    ensures var r := SafeLoop(c, rec, key, args, pending, fuel);
      r.Some? ==> StepsOk(c, rec, key, args, r.value.trace)
    decreases fuel, 1, |pending|
  {
    var r := SafeLoop(c, rec, key, args, pending, fuel);
    if |pending| != 0 && r.Some? {
      var call := Call(c.self, key, pending[0], args);
      var b := SafeLoop(c, rec, key, args, pending[1..], fuel).value;
      SafeLoopOk(c, rec, key, args, pending[1..], fuel);
      match c.beh(pending[0], args)
      case Threw(e) =>
        var st := EmitError(c, rec, e, fuel).value;
        EmitErrorOk(c, rec, e, fuel);
        assert StepsOk(c, rec, key, args, [call, st]);
        StepsOkAppend(c, rec, key, args, [call, st], b.trace);
      case Returned(v) =>
        StepsOkAppend(c, rec, key, args, [call], b.trace);
    }
  }

  lemma {:induction false} HandlePromisesOk(c: Ctx, rec: Recovery, key: Key, args: seq<JsValue>, slots: seq<Slot>, from: nat, fuel: nat)
    ensures var r := HandlePromises(c, rec, slots, from, fuel);
      r.Some? ==> StepsOk(c, rec, key, args, r.value)
    decreases fuel, 1, |slots|
  {
    var r := HandlePromises(c, rec, slots, from, fuel);
    if |slots| != 0 && r.Some? {
      var t := HandlePromises(c, rec, slots[1..], from + 1, fuel).value;
      HandlePromisesOk(c, rec, key, args, slots[1..], from + 1, fuel);
      match SlotSettlement(slots[0])
      case Fulfilled =>
        StepsOkAppend(c, rec, key, args, [Awaited(from)], t);
      case Rejected(e) =>
        var st := EmitError(c, rec, e, fuel).value;
        EmitErrorOk(c, rec, e, fuel);
        assert StepsOk(c, rec, key, args, [Awaited(from), st]);
        StepsOkAppend(c, rec, key, args, [Awaited(from), st], t);
    }
  }

  lemma FinishOk(c: Ctx, rec: Recovery, key: Key, args: seq<JsValue>, b: Batch, fuel: nat)
    requires StepsOk(c, rec, key, args, b.trace)
    ensures var r := Finish(c, rec, b, fuel);
      r.Some? ==> StepsOk(c, rec, key, args, r.value)
    decreases fuel, 2, 0
  {
    var r := Finish(c, rec, b, fuel);
    if b.thenables && r.Some? {
      HandlePromisesOk(c, rec, key, args, b.slots, 0, fuel);
      StepsOkAppend(c, rec, key, args, b.trace, HandlePromises(c, rec, b.slots, 0, fuel).value);
    }
  }

  /** The top level of a completed dispatch has the shape its recovery rule
      gives. */
  lemma DispatchShaped(c: Ctx, rec: Recovery, key: Key, entry: Option<seq<ListenerId>>, args: seq<JsValue>, fuel: nat)
    ensures var r := EmitAsyncCore(c, rec, key, entry, args, fuel);
      r.Some? ==> Shaped(rec, c.beh, Listed(entry), args, Skeleton(r.value))
  {
    if rec.AlwaysRecover? {
      DispatchSkeleton(c, rec, key, entry, args, fuel);
    } else {
      WrittenSkeleton(c, key, entry, args, fuel);
    }
  }

  /** Every dispatch that completes is faithful, nested 'error' dispatches
      included, under either recovery rule. */
  lemma DispatchOk(c: Ctx, rec: Recovery, key: Key, entry: Option<seq<ListenerId>>, args: seq<JsValue>, fuel: nat)
    ensures var r := EmitAsyncCore(c, rec, key, entry, args, fuel);
      r.Some? ==> Faithful(c, rec, key, Listed(entry), args, r.value)
    decreases fuel, 3, 0
  {
    if entry.Some? && EmitAsyncCore(c, rec, key, entry, args, fuel).Some? {
      var b := OkBatch(c, rec, key, entry.value, args, fuel);
      FinishOk(c, rec, key, args, b, fuel);
    }
    DispatchShaped(c, rec, key, entry, args, fuel);
  }

  /** Every top-level call of a completed dispatch has the emitter as
      receiver and the dispatch's key and arguments. */
  lemma CallsAsGiven(c: Ctx, rec: Recovery, key: Key, entry: Option<seq<ListenerId>>, args: seq<JsValue>, fuel: nat)
    ensures var r := EmitAsyncCore(c, rec, key, entry, args, fuel);
      r.Some? ==> forall j :: 0 <= j < |r.value| && r.value[j].Call? ==>
        r.value[j] == Call(c.self, key, r.value[j].listener, args)
  {
    var r := EmitAsyncCore(c, rec, key, entry, args, fuel);
    if r.Some? {
      DispatchOk(c, rec, key, entry, args, fuel);
      forall j | 0 <= j < |r.value| && r.value[j].Call?
        ensures r.value[j] == Call(c.self, key, r.value[j].listener, args)
      {
        assert StepOk(c, rec, key, args, r.value[j]);
      }
    }
  }
}

=== FILE: findings.dfy ===
/**
 * The recovery step of `#emitAsync` as written:
 *
 *   if (++i != listeners.length) thenables ||= await this.#emitAsyncSafe(...)
 *
 * `a ||= b` evaluates `b` only when `a` is false.  So when a listener before
 * the first synchronous throw returned a promise-like value, the recovery
 * loop is never entered and the listeners after the thrower are never
 * called.  The rest of the model runs the recovery loop every time
 * (`AlwaysRecover`); this module relates the two.
 */
module Findings {
  import opened Wrappers
  import opened Values
  import opened Registry
  import opened Events
  import opened Reference
  import opened Dispatch
  import opened Faithfulness
  import opened Completion
  import opened Api
  import opened Properties

  /** As written, in the skipping case only the listeners up to and
      including the first thrower are ever invoked.  Every slot is still
      awaited, the skipped listeners' slots being holes, so the reports are
      the throws and rejections of the listeners that ran. */
  lemma AsWrittenSkipsRemainingListeners(c: Ctx, key: Key, ls: seq<ListenerId>, args: seq<JsValue>, i: nat, fuel: nat)
    requires SkipsRecovery(c.beh, ls, args, i)
    ensures var r := EmitAsyncCore(c, ShortCircuit, key, Some(ls), args, fuel);
      r.Some? ==>
        && Invocations(Skeleton(r.value)) == ls[..i + 1]
        && Settlements(Skeleton(r.value)) == Range(0, |ls|)
        && Reports(Skeleton(r.value)) == Thrown(c.beh, ls[..i + 1], args) + Rejections(Slots(c.beh, ls[..i + 1], args))
  {
    SkippedSkeleton(c, key, ls, args, i, fuel);
    SkippedProjections(c.beh, ls, i, args);
  }

  /** The table of the concrete case below: three listeners on "hello" and
      none on 'error'. */
  lemma WitnessTable()
    ensures var hello := Name("hello");
      var em := On(On(On(New(0), hello, 1), hello, 2), hello, 3);
      Lookup(em, hello) == Some([1, 2, 3]) && Lookup(em, ErrorKey).None?
  {
    var hello := Name("hello");
    var none: seq<ListenerId> := [];
    assert none + [1] == [1] && [1] + [2] == [1, 2] && [1, 2] + [3] == [1, 2, 3];
    assert Lookup(On(New(0), hello, 1), hello) == Some([1]);
    assert Lookup(On(On(New(0), hello, 1), hello, 2), hello) == Some([1, 2]);
  }

  /** The listeners of the concrete case below: listener 1 returns a
      pending promise, listener 2 throws, every other listener returns
      nothing. */
  function WitnessBehaviour(): Behaviour
  {
    (l, a) =>
      if l == 1 then Returned(Object(0, false, CallableThen(Fulfilled)))
      else if l == 2 then Threw(Primitive(7))
      else Returned(Undefined)
  }

  /** The listeners of the concrete case meet the skipping case. */
  lemma WitnessSkips()
    ensures SkipsRecovery(WitnessBehaviour(), [1, 2, 3], [], 1)
  {
    var beh := WitnessBehaviour();
    var ls: seq<ListenerId> := [1, 2, 3];
    var first: seq<ListenerId> := [1];
    assert ls[..1] == first && ls[1] == 2;
    assert CapturesPromiseLike(beh(first[0], []));
  }

  /** The concrete case as written, on any table with its entries. */
  lemma SkipCase(em: AsyncEmitter)
    requires Lookup(em, Name("hello")) == Some([1, 2, 3]) && Lookup(em, ErrorKey).None?
    ensures var r := EmitAsync(em, WitnessBehaviour(), Name("hello"), [], 1);
      r.Some? && Invocations(Skeleton(r.value)) == [1, 2]
  {
    var ls: seq<ListenerId> := [1, 2, 3];
    var r := EmitAsync(em, WitnessBehaviour(), Name("hello"), [], 1);
    assert QuietErrorListeners(CtxOf(em, WitnessBehaviour()));
    WitnessSkips();
    assert Skeleton(r.value) == SkippedExpected(WitnessBehaviour(), ls, 1, []);
    SkippedProjections(WitnessBehaviour(), ls, 1, []);
    assert ls[..2] == [1, 2];
  }

  /** The concrete case as written: listener 3 is never called. */
  lemma WitnessAsWritten()
    ensures var hello := Name("hello");
      var em := On(On(On(New(0), hello, 1), hello, 2), hello, 3);
      var r := EmitAsync(em, WitnessBehaviour(), hello, [], 1);
      r.Some? && Invocations(Skeleton(r.value)) == [1, 2]
  {
    WitnessTable();
    SkipCase(On(On(On(New(0), Name("hello"), 1), Name("hello"), 2), Name("hello"), 3));
  }

  /** The concrete case corrected: all three listeners are called. */
  lemma WitnessCorrected()
    ensures var hello := Name("hello");
      var em := On(On(On(New(0), hello, 1), hello, 2), hello, 3);
      var r := EmitAsyncCorrected(em, WitnessBehaviour(), hello, [], 1);
      r.Some? && Invocations(Skeleton(r.value)) == [1, 2, 3]
  {
    var hello := Name("hello");
    var em := On(On(On(New(0), hello, 1), hello, 2), hello, 3);
    WitnessTable();
    QuietErrorsComplete(em, WitnessBehaviour(), hello, [], 1);
    EveryListenerInvokedOnce(em, WitnessBehaviour(), hello, [], 1);
  }

  /** A concrete case: listener 1 returns a pending promise, listener 2
      throws, listener 3 returns nothing.  As written, listener 3 is never
      called; with the recovery loop always run, it is. */
  lemma SkippedListenerWitness()
    ensures var hello := Name("hello");
      var em := On(On(On(New(0), hello, 1), hello, 2), hello, 3);
      && EmitAsync(em, WitnessBehaviour(), hello, [], 1).Some?
      && Invocations(Skeleton(EmitAsync(em, WitnessBehaviour(), hello, [], 1).value)) == [1, 2]
      && EmitAsyncCorrected(em, WitnessBehaviour(), hello, [], 1).Some?
      && Invocations(Skeleton(EmitAsyncCorrected(em, WitnessBehaviour(), hello, [], 1).value)) == [1, 2, 3]
  {
    WitnessAsWritten();
    WitnessCorrected();
  }

  /** The written code skips the recovery loop only in the skipping case. */
  lemma FlagSetBeforeThrowIsTheSkippingCase(c: Ctx, key: Key, args: seq<JsValue>, ls: seq<ListenerId>)
    ensures var r := FastLoop(c, key, args, ls);
      r.Interrupted? && |r.rest| > 0 && r.batch.thenables ==> SkipsRecovery(c.beh, ls, args, r.at)
  {
  }

  /** When a dispatch never meets the skipping case and 'error' listeners
      never fail, the code as written and the corrected code do exactly the
      same thing. */
  lemma RecoveryRulesAgree(c: Ctx, key: Key, entry: Option<seq<ListenerId>>, args: seq<JsValue>, fuel: nat)
    requires QuietErrorListeners(c)
    requires forall i: nat :: !SkipsRecovery(c.beh, Listed(entry), args, i)
    ensures EmitAsyncCore(c, ShortCircuit, key, entry, args, fuel) == EmitAsyncCore(c, AlwaysRecover, key, entry, args, fuel)
  {
    if entry.Some? {
      var ls := entry.value;
      match FastLoop(c, key, args, ls)
      case Completed(b) =>
        HandlePromisesAgree(c, b.slots, 0, fuel);
      case Interrupted(b, at, e, rest) =>
        FlagSetBeforeThrowIsTheSkippingCase(c, key, args, ls);
        assert !SkipsRecovery(c.beh, Listed(entry), args, at);
        EmissionsAgree(c, e, fuel);
        HandlePromisesAgree(c, b.slots, 0, fuel);
        SafeLoopsAgree(c, key, args, rest, fuel);
        if |rest| != 0 && EmitError(c, AlwaysRecover, e, fuel).Some? {
          match SafeLoop(c, AlwaysRecover, key, args, rest, fuel)
          case None =>
          case Some(s) =>
            HandlePromisesAgree(c, b.slots + s.slots, 0, fuel);
        }
    }
  }

  lemma EmissionsAgree(c: Ctx, err: JsValue, fuel: nat)
    requires QuietErrorListeners(c)
    ensures EmitError(c, ShortCircuit, err, fuel) == EmitError(c, AlwaysRecover, err, fuel)
  {
    if fuel != 0 {
      QuietEmission(c, ShortCircuit, err, fuel);
      QuietEmission(c, AlwaysRecover, err, fuel);
    }
  }

  lemma {:induction false} SafeLoopsAgree(c: Ctx, key: Key, args: seq<JsValue>, pending: seq<ListenerId>, fuel: nat)
    requires QuietErrorListeners(c)
    ensures SafeLoop(c, ShortCircuit, key, args, pending, fuel) == SafeLoop(c, AlwaysRecover, key, args, pending, fuel)
    decreases |pending|
  {
    if |pending| != 0 {
      SafeLoopsAgree(c, key, args, pending[1..], fuel);
      if c.beh(pending[0], args).Threw? {
        EmissionsAgree(c, c.beh(pending[0], args).error, fuel);
      }
    }
  }

  lemma {:induction false} HandlePromisesAgree(c: Ctx, slots: seq<Slot>, from: nat, fuel: nat)
    requires QuietErrorListeners(c)
    ensures HandlePromises(c, ShortCircuit, slots, from, fuel) == HandlePromises(c, AlwaysRecover, slots, from, fuel)
    decreases |slots|
  {
    if |slots| != 0 {
      HandlePromisesAgree(c, slots[1..], from + 1, fuel);
      if SlotSettlement(slots[0]).Rejected? {
        EmissionsAgree(c, SlotSettlement(slots[0]).reason, fuel);
      }
    }
  }
}

=== FILE: properties.dfy ===
/**
 * The guarantees of `emitAsync` on an emitter.  Each is stated for the
 * dispatch with the recovery loop always run, and for the code as written
 * either in every case or outside the skipping case (see module Findings
 * for what the written code does inside it).
 */
module Properties {
  import opened Wrappers
  import opened Values
  import opened Registry
  import opened Events
  import opened Reference
  import opened Dispatch
  import opened Faithfulness
  import opened Completion
  import opened Silence
  import opened Api

  /** Dispatching a key that has no entry calls nothing and emits nothing. */
  lemma AbsentKeyIsNoOp(em: AsyncEmitter, beh: Behaviour, key: Key, args: seq<JsValue>, fuel: nat)
    requires Lookup(em, key).None?
    ensures EmitAsyncCorrected(em, beh, key, args, fuel) == Some([])
    ensures EmitAsync(em, beh, key, args, fuel) == Some([])
  {
  }

  /** Every listener of the key is invoked exactly once, in registration
      order, throws or no throws; no listener of another key is invoked at
      the top level; every call has the emitter as receiver and the
      dispatch's own arguments.  The code as written calls the same
      listeners outside the skipping case, and its calls have the same
      receiver and arguments in every case. */
  lemma EveryListenerInvokedOnce(em: AsyncEmitter, beh: Behaviour, key: Key, args: seq<JsValue>, fuel: nat)
    ensures var r := EmitAsyncCorrected(em, beh, key, args, fuel);
      r.Some? ==>
        && Invocations(Skeleton(r.value)) == Listed(Lookup(em, key))
        && forall i :: 0 <= i < |r.value| && r.value[i].Call? ==>
             r.value[i] == Call(em.self, key, r.value[i].listener, args)
    ensures var r := EmitAsync(em, beh, key, args, fuel);
      var ls := Listed(Lookup(em, key));
      r.Some? && (forall i: nat :: !SkipsRecovery(beh, ls, args, i)) ==> Invocations(Skeleton(r.value)) == ls
    ensures var r := EmitAsync(em, beh, key, args, fuel);
      r.Some? ==> forall i :: 0 <= i < |r.value| && r.value[i].Call? ==>
        r.value[i] == Call(em.self, key, r.value[i].listener, args)
  {
    var c := CtxOf(em, beh);
    DispatchSkeleton(c, AlwaysRecover, key, Lookup(em, key), args, fuel);
    ExpectedProjections(beh, Listed(Lookup(em, key)), args);
    CallsAsGiven(c, AlwaysRecover, key, Lookup(em, key), args, fuel);
    CallsAsGiven(c, ShortCircuit, key, Lookup(em, key), args, fuel);
  }

  /** A listener that throws does not stop the batch: right after it is
      invoked comes the emission of what it threw, complete with its nested
      dispatch, and only then are the later listeners invoked, each once,
      in order. */
  lemma ThrowReportedBeforeNextListener(em: AsyncEmitter, beh: Behaviour, key: Key, args: seq<JsValue>, fuel: nat, i: nat)
    requires i < |Listed(Lookup(em, key))|
    requires beh(Listed(Lookup(em, key))[i], args).Threw?
    ensures var r := EmitAsyncCorrected(em, beh, key, args, fuel);
      r.Some? ==> ReportedInPlace(Skeleton(r.value), beh, Listed(Lookup(em, key)), i, args)
    ensures var r := EmitAsync(em, beh, key, args, fuel);
      var ls := Listed(Lookup(em, key));
      r.Some? && (forall j: nat :: !SkipsRecovery(beh, ls, args, j)) ==> ReportedInPlace(Skeleton(r.value), beh, ls, i, args)
  {
    var ls := Listed(Lookup(em, key));
    DispatchSkeleton(CtxOf(em, beh), AlwaysRecover, key, Lookup(em, key), args, fuel);
    var r := EmitAsyncCorrected(em, beh, key, args, fuel);
    if r.Some? {
      ExpectedInPlace(Skeleton(r.value), beh, ls, i, args);
    }
    var w := EmitAsync(em, beh, key, args, fuel);
    if w.Some? && (forall j: nat :: !SkipsRecovery(beh, ls, args, j)) {
      ExpectedInPlace(Skeleton(w.value), beh, ls, i, args);
    }
  }

  /** The expected marks put every throw in place. */
  lemma ExpectedInPlace(m: seq<Mark>, beh: Behaviour, ls: seq<ListenerId>, i: nat, args: seq<JsValue>)
    requires i < |ls| && beh(ls[i], args).Threw?
    requires m == Expected(beh, ls, args)
    ensures ReportedInPlace(m, beh, ls, i, args)
  {
    ExpectedAroundThrow(beh, ls, i, args);
  }

  /** In `m`, listener `i`'s invocation is followed at once by the report of
      what it threw; exactly the listeners before it are invoked before,
      and exactly those after it are invoked after. */
  ghost predicate ReportedInPlace(m: seq<Mark>, beh: Behaviour, ls: seq<ListenerId>, i: nat, args: seq<JsValue>)
    requires i < |ls| && beh(ls[i], args).Threw?
  {
    var k := |PhaseA(beh, ls[..i], args)|;
    && k + 2 <= |m|
    && m[k..k + 2] == [Invoked(ls[i]), Reported(beh(ls[i], args).error)]
    && Invocations(m[..k]) == ls[..i]
    && Invocations(m[k + 2..]) == ls[i + 1..]
  }

  /** One emission on 'error' per failure and no other: first the
      synchronous throws in listener order, then, when settling, the
      rejections in slot order.  Resolved slots, plain values and holes
      emit nothing. */
  lemma ErrorEmissionsMatchFailures(em: AsyncEmitter, beh: Behaviour, key: Key, args: seq<JsValue>, fuel: nat)
    ensures var r := EmitAsyncCorrected(em, beh, key, args, fuel);
      var ls := Listed(Lookup(em, key));
      r.Some? ==>
        Reports(Skeleton(r.value))
        == Thrown(beh, ls, args) + (if AnyPromiseLike(beh, ls, args) then Rejections(Slots(beh, ls, args)) else [])
    ensures var r := EmitAsync(em, beh, key, args, fuel);
      var ls := Listed(Lookup(em, key));
      r.Some? && (forall i: nat :: !SkipsRecovery(beh, ls, args, i)) ==>
        Reports(Skeleton(r.value))
        == Thrown(beh, ls, args) + (if AnyPromiseLike(beh, ls, args) then Rejections(Slots(beh, ls, args)) else [])
  {
    DispatchSkeleton(CtxOf(em, beh), AlwaysRecover, key, Lookup(em, key), args, fuel);
    ExpectedProjections(beh, Listed(Lookup(em, key)), args);
  }

  /** Settlement runs exactly when some captured result is promise-like,
      whether it came before or after a throw, and then awaits every slot
      once, in registration order. */
  lemma SettlementOnlyWhenPromiseLike(em: AsyncEmitter, beh: Behaviour, key: Key, args: seq<JsValue>, fuel: nat)
    ensures var r := EmitAsyncCorrected(em, beh, key, args, fuel);
      var ls := Listed(Lookup(em, key));
      r.Some? ==>
        Settlements(Skeleton(r.value)) == (if AnyPromiseLike(beh, ls, args) then Range(0, |ls|) else [])
    ensures var r := EmitAsync(em, beh, key, args, fuel);
      var ls := Listed(Lookup(em, key));
      r.Some? ==>
        Settlements(Skeleton(r.value)) == (if AnyPromiseLike(beh, ls, args) then Range(0, |ls|) else [])
  {
    var ls := Listed(Lookup(em, key));
    DispatchSkeleton(CtxOf(em, beh), AlwaysRecover, key, Lookup(em, key), args, fuel);
    ExpectedProjections(beh, ls, args);
    if i: nat :| SkipsRecovery(beh, ls, args, i) {
      SkippedProjections(beh, ls, i, args);
      assert ls == ls[..i] + ls[i..];
      AnyPromiseLikeAppend(beh, ls[..i], ls[i..], args);
    }
  }

  /** With no 'error' listener, every error emission is a dispatch that
      does nothing. */
  lemma UnheardErrorsAreSilent(em: AsyncEmitter, beh: Behaviour, key: Key, args: seq<JsValue>, fuel: nat)
    requires Listed(Lookup(em, ErrorKey)) == []
    ensures var r := EmitAsyncCorrected(em, beh, key, args, fuel);
      r.Some? ==> forall i :: 0 <= i < |r.value| && r.value[i].ErrorEmitted? ==> r.value[i].nested == []
    ensures var r := EmitAsync(em, beh, key, args, fuel);
      r.Some? ==> forall i :: 0 <= i < |r.value| && r.value[i].ErrorEmitted? ==> r.value[i].nested == []
  {
    DispatchSilent(CtxOf(em, beh), AlwaysRecover, key, Lookup(em, key), args, fuel);
  }

  /** If 'error' listeners never throw and never reject, dispatch always
      completes, as written or corrected, with fuel for one nested level. */
  lemma QuietErrorsComplete(em: AsyncEmitter, beh: Behaviour, key: Key, args: seq<JsValue>, fuel: nat)
    requires QuietErrorListeners(CtxOf(em, beh)) && fuel >= 1
    ensures EmitAsyncCorrected(em, beh, key, args, fuel).Some?
    ensures EmitAsync(em, beh, key, args, fuel).Some?
  {
    DispatchCompletes(CtxOf(em, beh), AlwaysRecover, key, Lookup(em, key), args, fuel);
    DispatchCompletes(CtxOf(em, beh), ShortCircuit, key, Lookup(em, key), args, fuel);
  }

  /** An 'error' listener that always throws makes any dispatch with a
      throwing listener recurse past every bound. */
  lemma FailingErrorListenerDiverges(em: AsyncEmitter, beh: Behaviour, key: Key, args: seq<JsValue>, fuel: nat)
    requires AlwaysThrowingErrorListener(CtxOf(em, beh))
    requires SomeThrow(beh, Listed(Lookup(em, key)), args)
    ensures EmitAsyncCorrected(em, beh, key, args, fuel).None?
    ensures EmitAsync(em, beh, key, args, fuel).None?
  {
    DispatchNeverCompletes(CtxOf(em, beh), AlwaysRecover, key, Lookup(em, key), args, fuel);
    DispatchNeverCompletes(CtxOf(em, beh), ShortCircuit, key, Lookup(em, key), args, fuel);
  }

  /** Subscribing to another ordinary key changes nothing about a dispatch. */
  lemma SubscribingElsewhereIsInvisible(em: AsyncEmitter, beh: Behaviour, k: Key, l: ListenerId, key: Key, args: seq<JsValue>, fuel: nat)
    requires k != key && k != ErrorKey
    ensures EmitAsyncCorrected(On(em, k, l), beh, key, args, fuel) == EmitAsyncCorrected(em, beh, key, args, fuel)
    ensures EmitAsync(On(em, k, l), beh, key, args, fuel) == EmitAsync(em, beh, key, args, fuel)
  {
    assert CtxOf(On(em, k, l), beh) == CtxOf(em, beh);
  }

  /** A listener subscribed last is invoked last, after every earlier one;
      by the code as written, outside the skipping case. */
  lemma SubscribedListenerRunsLast(em: AsyncEmitter, beh: Behaviour, key: Key, l: ListenerId, args: seq<JsValue>, fuel: nat)
    ensures var r := EmitAsyncCorrected(On(em, key, l), beh, key, args, fuel);
      r.Some? ==> Invocations(Skeleton(r.value)) == Listed(Lookup(em, key)) + [l]
    ensures var r := EmitAsync(On(em, key, l), beh, key, args, fuel);
      var ls := Listed(Lookup(On(em, key, l), key));
      r.Some? && (forall i: nat :: !SkipsRecovery(beh, ls, args, i)) ==>
        Invocations(Skeleton(r.value)) == Listed(Lookup(em, key)) + [l]
  {
    EveryListenerInvokedOnce(On(em, key, l), beh, key, args, fuel);
  }
}

=== FILE: reference.dfy ===
/**
 * A reference description of one dispatch, independent of how the fast
 * loop, the recovery loop and the settlement loop divide the work: what
 * the steps of the trace are, listener by listener and slot by slot.
 */
module Reference {
  import opened Wrappers
  import opened Values
  import opened Registry
  import opened Events

  /** A step with its receiver, arguments and nested trace erased. */
  datatype Mark = Invoked(listener: ListenerId) | Settled(slot: nat) | Reported(reason: JsValue)

  function MarkOf(st: Step): Mark
  {
    match st
    case Call(_, _, l, _) => Invoked(l)
    case Awaited(i) => Settled(i)
    case ErrorEmitted(e, _) => Reported(e)
  }

  /** The top level of a trace, one mark per step. */
  function Skeleton(t: seq<Step>): seq<Mark>
  {
    if |t| == 0 then [] else [MarkOf(t[0])] + Skeleton(t[1..])
  }

  /** The call steps for `ls`, in order, each with the emitter as receiver
      and the dispatch's own arguments. */
  function Calls(self: EmitterId, key: Key, args: seq<JsValue>, ls: seq<ListenerId>): seq<Step>
  {
    if |ls| == 0 then [] else [Call(self, key, ls[0], args)] + Calls(self, key, args, ls[1..])
  }

  /** The invocation stage: each listener invoked once, in order; one that
      throws is followed at once by the report of what it threw, before the
      next listener is invoked. */
  function PhaseA(beh: Behaviour, ls: seq<ListenerId>, args: seq<JsValue>): seq<Mark>
  {
    if |ls| == 0 then []
    else Chunk(beh, ls[0], args) + PhaseA(beh, ls[1..], args)
  }

  /** The marks one listener contributes to the invocation stage. */
  function Chunk(beh: Behaviour, l: ListenerId, args: seq<JsValue>): seq<Mark>
  {
    match beh(l, args)
    case Returned(_) => [Invoked(l)]
    case Threw(e) => [Invoked(l), Reported(e)]
  }

  /** The result array after every listener has been called. */
  function Slots(beh: Behaviour, ls: seq<ListenerId>, args: seq<JsValue>): seq<Slot>
  {
    if |ls| == 0 then [] else [SlotOf(beh(ls[0], args))] + Slots(beh, ls[1..], args)
  }

  /** No listener in `ls` throws. */
  ghost predicate NoThrow(beh: Behaviour, ls: seq<ListenerId>, args: seq<JsValue>)
  {
    forall i :: 0 <= i < |ls| ==> beh(ls[i], args).Returned?
  }

  /** Some listener in `ls` returns a promise-like value. */
  ghost predicate AnyPromiseLike(beh: Behaviour, ls: seq<ListenerId>, args: seq<JsValue>)
  {
    exists i :: 0 <= i < |ls| && CapturesPromiseLike(beh(ls[i], args))
  }

  /** The settlement stage over `slots`, numbered from `from`: every slot
      awaited in index order, each rejection reported right after its slot. */
  function PhaseB(slots: seq<Slot>, from: nat): seq<Mark>
  {
    if |slots| == 0 then []
    else
      var report := match SlotSettlement(slots[0])
        case Fulfilled => []
        case Rejected(e) => [Reported(e)];
      [Settled(from)] + report + PhaseB(slots[1..], from + 1)
  }

  /** The whole dispatch: the invocation stage, then the settlement stage
      if and only if some listener returned a promise-like value. */
  ghost function Expected(beh: Behaviour, ls: seq<ListenerId>, args: seq<JsValue>): seq<Mark>
  {
    PhaseA(beh, ls, args) + (if AnyPromiseLike(beh, ls, args) then PhaseB(Slots(beh, ls, args), 0) else [])
  }

  /** `n` holes: slots of listeners that were never called. */
  function Holes(n: nat): (r: seq<Slot>)
    ensures |r| == n && forall i :: 0 <= i < n ==> r[i].None?
  {
    seq(n, _ => None)
  }

  /** Listener `i` is the first to throw, some listener before it returned a
      promise-like value, and listeners remain after it: the case in which
      the written code skips the recovery loop. */
  ghost predicate SkipsRecovery(beh: Behaviour, ls: seq<ListenerId>, args: seq<JsValue>, i: nat)
  {
    && i + 1 < |ls|
    && NoThrow(beh, ls[..i], args)
    && beh(ls[i], args).Threw?
    && AnyPromiseLike(beh, ls[..i], args)
  }

  /** The written dispatch in the skipping case at listener `i`: the
      invocation stage stops at the thrower, then every slot is awaited,
      the skipped listeners' slots being holes. */
  function SkippedExpected(beh: Behaviour, ls: seq<ListenerId>, i: nat, args: seq<JsValue>): seq<Mark>
    requires i < |ls|
  {
    PhaseA(beh, ls[..i + 1], args) + PhaseB(Slots(beh, ls[..i + 1], args) + Holes(|ls| - i - 1), 0)
  }

  // Projections of a sequence of marks.

  /** The listeners invoked, in order. */
  function Invocations(m: seq<Mark>): seq<ListenerId>
  {
    if |m| == 0 then [] else (if m[0].Invoked? then [m[0].listener] else []) + Invocations(m[1..])
  }

  /** The slots awaited, in order. */
  function Settlements(m: seq<Mark>): seq<nat>
  {
    if |m| == 0 then [] else (if m[0].Settled? then [m[0].slot] else []) + Settlements(m[1..])
  }

  /** The values emitted on 'error', in order. */
  function Reports(m: seq<Mark>): seq<JsValue>
  {
    if |m| == 0 then [] else (if m[0].Reported? then [m[0].reason] else []) + Reports(m[1..])
  }

  /** The values thrown synchronously by `ls`, in order. */
  function Thrown(beh: Behaviour, ls: seq<ListenerId>, args: seq<JsValue>): seq<JsValue>
  {
    if |ls| == 0 then []
    else (if beh(ls[0], args).Threw? then [beh(ls[0], args).error] else []) + Thrown(beh, ls[1..], args)
  }

  /** The rejection reasons of the rejecting slots, in order. */
  function Rejections(slots: seq<Slot>): seq<JsValue>
  {
    if |slots| == 0 then []
    else (if SlotSettlement(slots[0]).Rejected? then [SlotSettlement(slots[0]).reason] else []) + Rejections(slots[1..])
  }

  /** The slot indices `from`, `from + 1`, ..., `from + n - 1`. */
  function Range(from: nat, n: nat): seq<nat>
    decreases n
  {
    if n == 0 then [] else [from] + Range(from + 1, n - 1)
  }

  // How the reference descriptions split over concatenation.

  lemma {:induction false} SkeletonAppend(a: seq<Step>, b: seq<Step>)
    ensures Skeleton(a + b) == Skeleton(a) + Skeleton(b)
    decreases |a|
  {
    if |a| == 0 {
      assert a + b == b;
    } else {
      assert (a + b)[1..] == a[1..] + b;
      SkeletonAppend(a[1..], b);
    }
  }

  lemma {:induction false} CallsAppend(self: EmitterId, key: Key, args: seq<JsValue>, a: seq<ListenerId>, b: seq<ListenerId>)
    ensures Calls(self, key, args, a + b) == Calls(self, key, args, a) + Calls(self, key, args, b)
    decreases |a|
  {
    if |a| == 0 {
      assert a + b == b;
    } else {
      assert (a + b)[1..] == a[1..] + b;
      CallsAppend(self, key, args, a[1..], b);
    }
  }

  lemma {:induction false} PhaseAAppend(beh: Behaviour, a: seq<ListenerId>, b: seq<ListenerId>, args: seq<JsValue>)
    ensures PhaseA(beh, a + b, args) == PhaseA(beh, a, args) + PhaseA(beh, b, args)
    decreases |a|
  {
    if |a| == 0 {
      assert a + b == b;
    } else {
      assert (a + b)[1..] == a[1..] + b;
      PhaseAAppend(beh, a[1..], b, args);
    }
  }

  lemma {:induction false} SlotsAppend(beh: Behaviour, a: seq<ListenerId>, b: seq<ListenerId>, args: seq<JsValue>)
    ensures Slots(beh, a + b, args) == Slots(beh, a, args) + Slots(beh, b, args)
    decreases |a|
  {
    if |a| == 0 {
      assert a + b == b;
    } else {
      assert (a + b)[1..] == a[1..] + b;
      SlotsAppend(beh, a[1..], b, args);
    }
  }

  lemma {:induction false} SlotsLength(beh: Behaviour, ls: seq<ListenerId>, args: seq<JsValue>)
    ensures |Slots(beh, ls, args)| == |ls|
    decreases |ls|
  {
    if |ls| != 0 {
      SlotsLength(beh, ls[1..], args);
    }
  }

  lemma AnyPromiseLikeAppend(beh: Behaviour, a: seq<ListenerId>, b: seq<ListenerId>, args: seq<JsValue>)
    ensures AnyPromiseLike(beh, a + b, args) <==> AnyPromiseLike(beh, a, args) || AnyPromiseLike(beh, b, args)
  {
    if AnyPromiseLike(beh, a + b, args) {
      var i :| 0 <= i < |a + b| && CapturesPromiseLike(beh((a + b)[i], args));
      if i >= |a| {
        assert b[i - |a|] == (a + b)[i];
      } else {
        assert a[i] == (a + b)[i];
      }
    }
    if AnyPromiseLike(beh, b, args) {
      var i :| 0 <= i < |b| && CapturesPromiseLike(beh(b[i], args));
      assert (a + b)[|a| + i] == b[i];
    }
    if AnyPromiseLike(beh, a, args) {
      var i :| 0 <= i < |a| && CapturesPromiseLike(beh(a[i], args));
      assert (a + b)[i] == a[i];
    }
  }

  /** Without throws the invocation stage is just the calls. */
  lemma {:induction false} CallsSkeleton(self: EmitterId, key: Key, beh: Behaviour, ls: seq<ListenerId>, args: seq<JsValue>)
    requires NoThrow(beh, ls, args)
    ensures Skeleton(Calls(self, key, args, ls)) == PhaseA(beh, ls, args)
    decreases |ls|
  {
    if |ls| != 0 {
      assert beh(ls[0], args).Returned?;
      assert NoThrow(beh, ls[1..], args) by {
        forall i | 0 <= i < |ls[1..]|
          ensures beh(ls[1..][i], args).Returned?
        {
          assert ls[1..][i] == ls[i + 1];
        }
      }
      CallsSkeleton(self, key, beh, ls[1..], args);
    }
  }

  // The projections of the reference description.

  lemma {:induction false} InvocationsAppend(a: seq<Mark>, b: seq<Mark>)
    ensures Invocations(a + b) == Invocations(a) + Invocations(b)
    decreases |a|
  {
    if |a| == 0 {
      assert a + b == b;
    } else {
      var h := if a[0].Invoked? then [a[0].listener] else [];
      assert (a + b)[0] == a[0] && (a + b)[1..] == a[1..] + b;
      assert Invocations(a + b) == h + Invocations(a[1..] + b);
      InvocationsAppend(a[1..], b);
    }
  }

  lemma {:induction false} SettlementsAppend(a: seq<Mark>, b: seq<Mark>)
    ensures Settlements(a + b) == Settlements(a) + Settlements(b)
    decreases |a|
  {
    if |a| == 0 {
      assert a + b == b;
    } else {
      var h := if a[0].Settled? then [a[0].slot] else [];
      assert (a + b)[0] == a[0] && (a + b)[1..] == a[1..] + b;
      assert Settlements(a + b) == h + Settlements(a[1..] + b);
      SettlementsAppend(a[1..], b);
    }
  }

  lemma {:induction false} ReportsAppend(a: seq<Mark>, b: seq<Mark>)
    ensures Reports(a + b) == Reports(a) + Reports(b)
    decreases |a|
  {
    if |a| == 0 {
      assert a + b == b;
    } else {
      var h := if a[0].Reported? then [a[0].reason] else [];
      assert (a + b)[0] == a[0] && (a + b)[1..] == a[1..] + b;
      assert Reports(a + b) == h + Reports(a[1..] + b);
      ReportsAppend(a[1..], b);
    }
  }

  /** All three projections split over concatenation. */
  lemma ProjectionsAppend(a: seq<Mark>, b: seq<Mark>)
    ensures Invocations(a + b) == Invocations(a) + Invocations(b)
    ensures Settlements(a + b) == Settlements(a) + Settlements(b)
    ensures Reports(a + b) == Reports(a) + Reports(b)
  {
    InvocationsAppend(a, b);
    SettlementsAppend(a, b);
    ReportsAppend(a, b);
  }

  /** The projections of a single mark. */
  lemma MarkProjections(x: Mark)
    ensures Invocations([x]) == if x.Invoked? then [x.listener] else []
    ensures Settlements([x]) == if x.Settled? then [x.slot] else []
    ensures Reports([x]) == if x.Reported? then [x.reason] else []
  {
    assert [x][1..] == [];
  }

  /** One listener's marks: its invocation, and the report of its throw. */
  lemma ChunkProjections(beh: Behaviour, l: ListenerId, args: seq<JsValue>)
    ensures Invocations(Chunk(beh, l, args)) == [l]
    ensures Settlements(Chunk(beh, l, args)) == []
    ensures Reports(Chunk(beh, l, args)) == if beh(l, args).Threw? then [beh(l, args).error] else []
  {
    MarkProjections(Invoked(l));
    match beh(l, args)
    case Returned(_) =>
    case Threw(e) =>
      MarkProjections(Reported(e));
      assert Chunk(beh, l, args) == [Invoked(l)] + [Reported(e)];
      InvocationsAppend([Invoked(l)], [Reported(e)]);
      SettlementsAppend([Invoked(l)], [Reported(e)]);
      ReportsAppend([Invoked(l)], [Reported(e)]);
  }

  /** The invocation stage invokes every listener once, in order, awaits
      nothing, and reports exactly the synchronous throws, in order. */
  lemma {:induction false} PhaseAProjections(beh: Behaviour, ls: seq<ListenerId>, args: seq<JsValue>)
    ensures Invocations(PhaseA(beh, ls, args)) == ls
    ensures Settlements(PhaseA(beh, ls, args)) == []
    ensures Reports(PhaseA(beh, ls, args)) == Thrown(beh, ls, args)
    decreases |ls|
  {
    if |ls| != 0 {
      var chunk := Chunk(beh, ls[0], args);
      var rest := PhaseA(beh, ls[1..], args);
      assert PhaseA(beh, ls, args) == chunk + rest;
      PhaseAProjections(beh, ls[1..], args);
      ChunkProjections(beh, ls[0], args);
      InvocationsAppend(chunk, rest);
      SettlementsAppend(chunk, rest);
      ReportsAppend(chunk, rest);
      assert ls == [ls[0]] + ls[1..];
    }
  }

  /** One slot's marks: its await, and the report of its rejection. */
  lemma SlotProjections(slot: Slot, from: nat, report: seq<Mark>)
    requires report == match SlotSettlement(slot)
      case Fulfilled => []
      case Rejected(e) => [Reported(e)]
    ensures Invocations([Settled(from)] + report) == []
    ensures Settlements([Settled(from)] + report) == [from]
    ensures Reports([Settled(from)] + report) == if SlotSettlement(slot).Rejected? then [SlotSettlement(slot).reason] else []
  {
    MarkProjections(Settled(from));
    match SlotSettlement(slot)
    case Fulfilled =>
      assert [Settled(from)] + report == [Settled(from)];
    case Rejected(e) =>
      MarkProjections(Reported(e));
      InvocationsAppend([Settled(from)], report);
      SettlementsAppend([Settled(from)], report);
      ReportsAppend([Settled(from)], report);
  }

  /** The settlement stage awaits each slot once, in index order, invokes
      nothing, and reports exactly the rejections, in slot order. */
  lemma {:induction false} PhaseBProjections(slots: seq<Slot>, from: nat)
    ensures Invocations(PhaseB(slots, from)) == []
    ensures Settlements(PhaseB(slots, from)) == Range(from, |slots|)
    ensures Reports(PhaseB(slots, from)) == Rejections(slots)
    decreases |slots|
  {
    if |slots| != 0 {
      var report := match SlotSettlement(slots[0])
        case Fulfilled => []
        case Rejected(e) => [Reported(e)];
      var head := [Settled(from)] + report;
      var rest := PhaseB(slots[1..], from + 1);
      assert PhaseB(slots, from) == head + rest;
      PhaseBProjections(slots[1..], from + 1);
      SlotProjections(slots[0], from, report);
      InvocationsAppend(head, rest);
      SettlementsAppend(head, rest);
      ReportsAppend(head, rest);
    }
  }

  /** The reference dispatch, projected: every listener invoked once in
      order; every slot awaited in order exactly when some listener returned
      a promise-like value; one report per synchronous throw, then one per
      rejection when settling. */
  lemma ExpectedProjections(beh: Behaviour, ls: seq<ListenerId>, args: seq<JsValue>)
    ensures Invocations(Expected(beh, ls, args)) == ls
    ensures Settlements(Expected(beh, ls, args))
         == (if AnyPromiseLike(beh, ls, args) then Range(0, |ls|) else [])
    ensures Reports(Expected(beh, ls, args))
         == Thrown(beh, ls, args) + (if AnyPromiseLike(beh, ls, args) then Rejections(Slots(beh, ls, args)) else [])
  {
    var b := if AnyPromiseLike(beh, ls, args) then PhaseB(Slots(beh, ls, args), 0) else [];
    ProjectionsAppend(PhaseA(beh, ls, args), b);
    PhaseAProjections(beh, ls, args);
    PhaseBProjections(Slots(beh, ls, args), 0);
    SlotsLength(beh, ls, args);
  }

  /** Listener `i`'s marks sit between those of the listeners before it and
      those of the listeners after it: its invocation, then, if it threw,
      the report of what it threw. */
  lemma PhaseAAround(beh: Behaviour, ls: seq<ListenerId>, i: nat, args: seq<JsValue>)
    requires i < |ls|
    ensures PhaseA(beh, ls, args) == PhaseA(beh, ls[..i], args) + Chunk(beh, ls[i], args) + PhaseA(beh, ls[i + 1..], args)
  {
    assert ls == ls[..i] + [ls[i]] + ls[i + 1..];
    PhaseAAppend(beh, ls[..i] + [ls[i]], ls[i + 1..], args);
    PhaseAAppend(beh, ls[..i], [ls[i]], args);
  }

  lemma {:induction false} SkeletonLength(t: seq<Step>)
    ensures |Skeleton(t)| == |t|
    decreases |t|
  {
    if |t| != 0 {
      SkeletonLength(t[1..]);
    }
  }

  lemma SplitMarks(before: seq<Mark>, middle: seq<Mark>, after: seq<Mark>)
    ensures var m := before + middle + after;
      && m[..|before|] == before
      && m[|before|..|before| + |middle|] == middle
      && m[|before| + |middle|..] == after
  {
  }

  /** The reference dispatch around listener `i`: the invocation stage of
      the listeners before it, its own marks, then everything after. */
  lemma ExpectedAround(beh: Behaviour, ls: seq<ListenerId>, i: nat, args: seq<JsValue>)
    requires i < |ls|
    ensures Expected(beh, ls, args)
         == PhaseA(beh, ls[..i], args) + Chunk(beh, ls[i], args)
            + (PhaseA(beh, ls[i + 1..], args)
               + (if AnyPromiseLike(beh, ls, args) then PhaseB(Slots(beh, ls, args), 0) else []))
  {
    PhaseAAround(beh, ls, i, args);
  }

  /** After listener `i` the reference dispatch invokes exactly the
      listeners that follow it. */
  lemma InvokedAfter(beh: Behaviour, ls: seq<ListenerId>, i: nat, args: seq<JsValue>)
    requires i < |ls|
    ensures Invocations(PhaseA(beh, ls[i + 1..], args)
               + (if AnyPromiseLike(beh, ls, args) then PhaseB(Slots(beh, ls, args), 0) else []))
         == ls[i + 1..]
  {
    var settle := if AnyPromiseLike(beh, ls, args) then PhaseB(Slots(beh, ls, args), 0) else [];
    InvocationsAppend(PhaseA(beh, ls[i + 1..], args), settle);
    PhaseAProjections(beh, ls[i + 1..], args);
    PhaseBProjections(Slots(beh, ls, args), 0);
    assert ls[i + 1..] + [] == ls[i + 1..];
  }

  /** In the reference dispatch, a listener that throws is followed at once
      by the report of what it threw; the listeners before it are invoked
      before, the listeners after it are invoked after. */
  lemma ExpectedAroundThrow(beh: Behaviour, ls: seq<ListenerId>, i: nat, args: seq<JsValue>)
    requires i < |ls| && beh(ls[i], args).Threw?
    ensures var m := Expected(beh, ls, args);
      var k := |PhaseA(beh, ls[..i], args)|;
      && k + 2 <= |m|
      && m[k..k + 2] == [Invoked(ls[i]), Reported(beh(ls[i], args).error)]
      && Invocations(m[..k]) == ls[..i]
      && Invocations(m[k + 2..]) == ls[i + 1..]
  {
    var before := PhaseA(beh, ls[..i], args);
    var chunk := Chunk(beh, ls[i], args);
    var rest := PhaseA(beh, ls[i + 1..], args)
      + (if AnyPromiseLike(beh, ls, args) then PhaseB(Slots(beh, ls, args), 0) else []);
    ExpectedAround(beh, ls, i, args);
    var m := Expected(beh, ls, args);
    assert m == before + chunk + rest;
    assert chunk == [Invoked(ls[i]), Reported(beh(ls[i], args).error)];
    SplitMarks(before, chunk, rest);
    assert m[..|before|] == before && m[|before|..|before| + 2] == chunk && m[|before| + 2..] == rest;
    PhaseAProjections(beh, ls[..i], args);
    InvokedAfter(beh, ls, i, args);
  }

  /** Call steps invoke exactly their listeners, in order, whatever the
      listeners then do. */
  lemma {:induction false} CallsInvoke(self: EmitterId, key: Key, args: seq<JsValue>, ls: seq<ListenerId>)
    ensures Invocations(Skeleton(Calls(self, key, args, ls))) == ls
    decreases |ls|
  {
    if |ls| != 0 {
      CallsInvoke(self, key, args, ls[1..]);
      assert ls == [ls[0]] + ls[1..];
    }
  }

  lemma {:induction false} RejectionsAppend(a: seq<Slot>, b: seq<Slot>)
    ensures Rejections(a + b) == Rejections(a) + Rejections(b)
    decreases |a|
  {
    if |a| == 0 {
      assert a + b == b;
    } else {
      assert (a + b)[0] == a[0] && (a + b)[1..] == a[1..] + b;
      RejectionsAppend(a[1..], b);
    }
  }

  /** Holes await as `undefined` and reject nothing. */
  lemma {:induction false} HolesRejectNothing(n: nat)
    ensures Rejections(Holes(n)) == []
    decreases n
  {
    if n != 0 {
      assert Holes(n)[1..] == Holes(n - 1);
      HolesRejectNothing(n - 1);
    }
  }

  /** In the skipping case only the listeners up to the thrower are
      invoked, yet every slot is awaited in order, and the reports are the
      throws and rejections of the listeners that ran. */
  lemma SkippedProjections(beh: Behaviour, ls: seq<ListenerId>, i: nat, args: seq<JsValue>)
    requires i < |ls|
    ensures Invocations(SkippedExpected(beh, ls, i, args)) == ls[..i + 1]
    ensures Settlements(SkippedExpected(beh, ls, i, args)) == Range(0, |ls|)
    ensures Reports(SkippedExpected(beh, ls, i, args))
         == Thrown(beh, ls[..i + 1], args) + Rejections(Slots(beh, ls[..i + 1], args))
  {
    var ran := ls[..i + 1];
    var slots := Slots(beh, ran, args) + Holes(|ls| - i - 1);
    var a := PhaseA(beh, ran, args);
    var b := PhaseB(slots, 0);
    assert SkippedExpected(beh, ls, i, args) == a + b;
    PhaseAProjections(beh, ran, args);
    PhaseBProjections(slots, 0);
    InvocationsAppend(a, b);
    SettlementsAppend(a, b);
    ReportsAppend(a, b);
    SlotsLength(beh, ran, args);
    assert |slots| == |ls|;
    assert Settlements(a) + Settlements(b) == Range(0, |ls|);
    assert Invocations(a) + Invocations(b) == ran;
    RejectionsAppend(Slots(beh, ran, args), Holes(|ls| - i - 1));
    HolesRejectNothing(|ls| - i - 1);
    assert Rejections(slots) == Rejections(Slots(beh, ran, args)) + [];
  }
}

=== FILE: registry.dfy ===
/**
 * The listener table of an emitter: a map from event key to the ordered
 * sequence of listeners subscribed with `on`.
 */
module Registry {
  import opened Wrappers

  /** A property key: string, number or symbol.  Map lookup distinguishes
      the string "1" from the number 1, and so do these constructors. */
  datatype Key = Name(name: string) | Number(n: int) | Symbol(id: nat)

  /** The ordinary key that errors are emitted on. */
  const ErrorKey: Key := Name("error")

  /** Listener functions and emitter instances are compared by identity. */
  type ListenerId = nat
  type EmitterId = nat

  /** An emitter: its own identity (the receiver of every listener call)
      and its listener table. */
  datatype AsyncEmitter = AsyncEmitter(self: EmitterId, listeners: map<Key, seq<ListenerId>>)

  /** A freshly constructed emitter has an empty table. */
  function New(self: EmitterId): (em: AsyncEmitter)
    ensures em.self == self
    ensures forall k :: Lookup(em, k).None?
  {
    AsyncEmitter(self, map[])
  }

  /** `this.#listeners.get(eventName)`. */
  function Lookup(em: AsyncEmitter, key: Key): Option<seq<ListenerId>>
  {
    if key in em.listeners then Some(em.listeners[key]) else None
  }

  /** The listeners an entry holds; a missing entry holds none. */
  function Listed(entry: Option<seq<ListenerId>>): seq<ListenerId>
  {
    if entry.Some? then entry.value else []
  }

  /** `on(eventName, listener)`: appends the listener to the key's sequence,
      creating the sequence on first use.  Duplicates are kept, and every
      other key keeps its entry. */
  function On(em: AsyncEmitter, key: Key, listener: ListenerId): (r: AsyncEmitter)
    ensures r.self == em.self
    ensures Lookup(r, key) == Some(Listed(Lookup(em, key)) + [listener])
    ensures forall k :: k != key ==> Lookup(r, k) == Lookup(em, k)
  {
    var found := if key in em.listeners then em.listeners[key] else [];
    AsyncEmitter(em.self, em.listeners[key := found + [listener]])
  }

  /** Subscribes each (key, listener) pair in turn. */
  function OnAll(em: AsyncEmitter, subscriptions: seq<(Key, ListenerId)>): AsyncEmitter
    decreases |subscriptions|
  {
    if |subscriptions| == 0 then em
    else On(OnAll(em, subscriptions[..|subscriptions| - 1]),
            subscriptions[|subscriptions| - 1].0,
            subscriptions[|subscriptions| - 1].1)
  }

  /** The listeners a sequence of subscriptions registers for `key`, in
      subscription order. */
  function SubscribedTo(subscriptions: seq<(Key, ListenerId)>, key: Key): seq<ListenerId>
    decreases |subscriptions|
  {
    if |subscriptions| == 0 then []
    else var last := subscriptions[|subscriptions| - 1];
      SubscribedTo(subscriptions[..|subscriptions| - 1], key) + (if last.0 == key then [last.1] else [])
  }

  /** Starting from a new emitter, each key's sequence lists exactly the
      listeners subscribed to it, in subscription order, duplicates
      included; a key has an entry exactly when something subscribed to it. */
  lemma {:induction false} RegistrationOrder(self: EmitterId, subscriptions: seq<(Key, ListenerId)>, key: Key)
    ensures Listed(Lookup(OnAll(New(self), subscriptions), key)) == SubscribedTo(subscriptions, key)
    ensures Lookup(OnAll(New(self), subscriptions), key).Some? <==> exists i :: 0 <= i < |subscriptions| && subscriptions[i].0 == key
    decreases |subscriptions|
  {
    if |subscriptions| == 0 {
    } else {
      var n := |subscriptions| - 1;
      var prefix := subscriptions[..n];
      RegistrationOrder(self, prefix, key);
      if subscriptions[n].0 != key {
        if exists i :: 0 <= i < |subscriptions| && subscriptions[i].0 == key {
          var i :| 0 <= i < |subscriptions| && subscriptions[i].0 == key;
          assert prefix[i].0 == key;
        }
      }
    }
  }
}

=== FILE: silence.dfy ===
/**
 * With no 'error' listener, every error emission is a dispatch that does
 * nothing, whichever recovery rule the dispatch follows.
 */
module Silence {
  import opened Wrappers
  import opened Values
  import opened Registry
  import opened Events
  import opened Reference
  import opened Dispatch

  /** Every error emission at the top level of `t` did nothing. */
  ghost predicate NestedSilent(t: seq<Step>)
  {
    forall i :: 0 <= i < |t| && t[i].ErrorEmitted? ==> t[i].nested == []
  }

  lemma SilentAppend(a: seq<Step>, b: seq<Step>)
    requires NestedSilent(a) && NestedSilent(b)
    ensures NestedSilent(a + b)
  {
    forall i | 0 <= i < |a + b| && (a + b)[i].ErrorEmitted?
      ensures (a + b)[i].nested == []
    {
      if i < |a| {
        assert (a + b)[i] == a[i];
      } else {
        assert (a + b)[i] == b[i - |a|];
      }
    }
  }

  /** Call steps are not emissions. */
  lemma {:induction false} CallsSilent(self: EmitterId, key: Key, args: seq<JsValue>, ls: seq<ListenerId>)
    ensures NestedSilent(Calls(self, key, args, ls))
    decreases |ls|
  {
    if |ls| != 0 {
      CallsSilent(self, key, args, ls[1..]);
      SilentAppend([Call(self, key, ls[0], args)], Calls(self, key, args, ls[1..]));
    }
  }

  /** An emission with no 'error' listener completes at once with an empty
      nested dispatch. */
  lemma EmissionSilent(c: Ctx, rec: Recovery, err: JsValue, fuel: nat)
    requires Listed(c.errors) == []
    ensures var r := EmitError(c, rec, err, fuel);
      r.Some? ==> r.value.nested == []
  {
    if fuel != 0 && c.errors.Some? {
      assert c.errors.value == [];
      assert FastLoop(c, ErrorKey, [err], []) == Completed(Batch([], [], false));
    }
  }

  lemma {:induction false} SafeLoopSilent(c: Ctx, rec: Recovery, key: Key, args: seq<JsValue>, pending: seq<ListenerId>, fuel: nat)
    requires Listed(c.errors) == []
    ensures var r := SafeLoop(c, rec, key, args, pending, fuel);
      r.Some? ==> NestedSilent(r.value.trace)
    decreases |pending|
  {
    var r := SafeLoop(c, rec, key, args, pending, fuel);
    if |pending| != 0 && r.Some? {
      var call := Call(c.self, key, pending[0], args);
      var b := SafeLoop(c, rec, key, args, pending[1..], fuel).value;
      SafeLoopSilent(c, rec, key, args, pending[1..], fuel);
      match c.beh(pending[0], args)
      case Threw(e) =>
        EmissionSilent(c, rec, e, fuel);
        SilentAppend([call, EmitError(c, rec, e, fuel).value], b.trace);
      case Returned(v) =>
        SilentAppend([call], b.trace);
    }
  }

  lemma {:induction false} HandlePromisesSilent(c: Ctx, rec: Recovery, slots: seq<Slot>, from: nat, fuel: nat)
    requires Listed(c.errors) == []
    ensures var r := HandlePromises(c, rec, slots, from, fuel);
      r.Some? ==> NestedSilent(r.value)
    decreases |slots|
  {
    var r := HandlePromises(c, rec, slots, from, fuel);
    if |slots| != 0 && r.Some? {
      var t := HandlePromises(c, rec, slots[1..], from + 1, fuel).value;
      HandlePromisesSilent(c, rec, slots[1..], from + 1, fuel);
      match SlotSettlement(slots[0])
      case Fulfilled =>
        SilentAppend([Awaited(from)], t);
      case Rejected(e) =>
        EmissionSilent(c, rec, e, fuel);
        SilentAppend([Awaited(from), EmitError(c, rec, e, fuel).value], t);
    }
  }

  lemma FinishSilent(c: Ctx, rec: Recovery, b: Batch, fuel: nat)
    requires Listed(c.errors) == [] && NestedSilent(b.trace)
    ensures var r := Finish(c, rec, b, fuel);
      r.Some? ==> NestedSilent(r.value)
  {
    var r := Finish(c, rec, b, fuel);
    if b.thenables && r.Some? {
      HandlePromisesSilent(c, rec, b.slots, 0, fuel);
      SilentAppend(b.trace, HandlePromises(c, rec, b.slots, 0, fuel).value);
    }
  }

  /** What a dispatch does after its fast loop was interrupted and the
      error was emitted keeps every emission silent. */
  lemma AfterInterruptSilent(c: Ctx, rec: Recovery, key: Key, args: seq<JsValue>, head: Batch, rest: seq<ListenerId>, fuel: nat)
    requires Listed(c.errors) == [] && NestedSilent(head.trace)
    ensures var r :=
        if |rest| == 0 then Finish(c, rec, head, fuel)
        else if rec.ShortCircuit? && head.thenables then
          Finish(c, rec, Batch(head.trace, head.slots + Holes(|rest|), true), fuel)
        else
          match SafeLoop(c, rec, key, args, rest, fuel)
          case None => None
          case Some(s) =>
            Finish(c, rec, Batch(head.trace + s.trace, head.slots + s.slots, head.thenables || s.thenables), fuel);
      r.Some? ==> NestedSilent(r.value)
  {
    if |rest| == 0 {
      FinishSilent(c, rec, head, fuel);
    } else if rec.ShortCircuit? && head.thenables {
      FinishSilent(c, rec, Batch(head.trace, head.slots + Holes(|rest|), true), fuel);
    } else if SafeLoop(c, rec, key, args, rest, fuel).Some? {
      var s := SafeLoop(c, rec, key, args, rest, fuel).value;
      SafeLoopSilent(c, rec, key, args, rest, fuel);
      SilentAppend(head.trace, s.trace);
      FinishSilent(c, rec, Batch(head.trace + s.trace, head.slots + s.slots, head.thenables || s.thenables), fuel);
    }
  }

  /** The interrupted case of a dispatch with no 'error' listener. */
  lemma InterruptedSilent(c: Ctx, rec: Recovery, key: Key, ls: seq<ListenerId>, args: seq<JsValue>, fuel: nat)
    requires Listed(c.errors) == [] && FastLoop(c, key, args, ls).Interrupted?
    ensures var r := EmitAsyncCore(c, rec, key, Some(ls), args, fuel);
      r.Some? ==> NestedSilent(r.value)
  {
    var fast := FastLoop(c, key, args, ls);
    var st := EmitError(c, rec, fast.error, fuel);
    if st.Some? {
      CallsSilent(c.self, key, args, ls[..fast.at + 1]);
      EmissionSilent(c, rec, fast.error, fuel);
      SilentAppend(fast.batch.trace, [st.value]);
      AfterInterruptSilent(c, rec, key, args, Batch(fast.batch.trace + [st.value], fast.batch.slots, fast.batch.thenables), fast.rest, fuel);
    }
  }

  /** With no 'error' listener, every error emission of a dispatch, as
      written or corrected, is a dispatch that does nothing. */
  lemma DispatchSilent(c: Ctx, rec: Recovery, key: Key, entry: Option<seq<ListenerId>>, args: seq<JsValue>, fuel: nat)
    ensures var r := EmitAsyncCore(c, rec, key, entry, args, fuel);
      Listed(c.errors) == [] && r.Some? ==> NestedSilent(r.value)
  {
    if Listed(c.errors) == [] && entry.Some? {
      var fast := FastLoop(c, key, args, entry.value);
      if fast.Completed? {
        CallsSilent(c.self, key, args, entry.value);
        FinishSilent(c, rec, fast.batch, fuel);
      } else {
        InterruptedSilent(c, rec, key, entry.value, args, fuel);
      }
    }
  }
}

=== FILE: values.dfy ===
/**
 * Abstract JavaScript values, as far as the dispatcher can tell them apart:
 * what `isPromiseLike` inspects and how `await Promise.resolve(x)` ends.
 */
module Values {

  /** A value a listener returns or throws.  All primitives (booleans,
      numbers, strings, symbols, bigints) collapse into `Primitive`; an
      object records whether it is callable (`typeof` says 'function') and
      what its `then` property is. */
  datatype JsValue =
    | Undefined
    | Null
    | Primitive(tag: int)
    | Object(id: nat, callable: bool, thenMember: ThenProperty)

  /** The `then` property of an object: absent, present but not a function,
      or a function.  A callable `then` is summarised by how the thenable
      eventually settles when awaited. */
  datatype ThenProperty =
    | NoThen
    | PlainThen
    | CallableThen(settles: Settlement)

  /** How awaiting a value ends. */
  datatype Settlement = Fulfilled | Rejected(reason: JsValue)

  /** `await Promise.resolve(x)`: an object or function whose `then` is
      callable is adopted and settles as that `then` decides; anything else
      fulfils at once. */
  function Settle(x: JsValue): (r: Settlement)
    ensures r.Rejected? ==> x.Object? && x.thenMember == CallableThen(r)
    ensures !x.Object? || !x.thenMember.CallableThen? ==> r == Fulfilled
  {
    if x.Object? && x.thenMember.CallableThen? then x.thenMember.settles else Fulfilled
  }

  /** `isPromiseLike`: not null or undefined, `typeof` is 'object' (so
      primitives and functions are excluded) and `then` is a function.
      A promise-like value is adopted when awaited; the only values that can
      reject when awaited without being promise-like are callable objects
      with a callable `then`. */
  predicate IsPromiseLike(x: JsValue)
    ensures IsPromiseLike(x) ==> x.Object? && !x.callable && x.thenMember.CallableThen? && Settle(x) == x.thenMember.settles
    ensures x.Object? && !x.callable && x.thenMember.CallableThen? ==> IsPromiseLike(x)
    ensures !IsPromiseLike(x) && Settle(x).Rejected? ==> x.Object? && x.callable
  {
    x.Object? && !x.callable && x.thenMember.CallableThen?
  }

  /** A callable thenable that rejects: `await` adopts its rejection, yet
      `isPromiseLike` does not classify it as promise-like. */
  lemma CallableThenableEscapesClassification(id: nat, e: JsValue)
    ensures var f := Object(id, true, CallableThen(Rejected(e)));
      !IsPromiseLike(f) && Settle(f) == Rejected(e)
  {
  }
}

=== FILE: wrappers.dfy ===
/** The optional-value type used throughout the model. */
module Wrappers {

  /** `None` stands for a missing table entry, or for a dispatch whose
      error recursion ran past its fuel bound. */
  datatype Option<+T> = None | Some(value: T)
}
